=== FILE: README.md ===
# SlickGrid DataView store and FloatEditor numeric logic, in Dafny

This project models two parts of slickgrid-universal's `common` package and
proves properties of the models.

**The DataView item store** (module `DataView`, with `DataViewIds` and
`Grouping`). The class `DataView.DataView` keeps the following fields:

- the ordered items;
- the name of the id property;
- the id-to-index lookup (`idxById`);
- the batch flags set by `beginUpdate(bulk)` and cleared by `endUpdate()`, even when it fails;
- the optional one-level grouping;
- the visible rows the grid reads.

Its invariant `Valid()` says four things:

- the lookup is always the one rebuilt from the items;
- outside a bulk batch the ids are defined and pairwise distinct, unless a failed `endUpdate` left them unchecked;
- a bulk batch is always an open batch;
- outside a batch the rows are exactly the items' visible rows, unless a failed `endUpdate` left them as they were.

Two ghost flags, `idsUnchecked` and `rowsStale`, record what a failed
`endUpdate` leaves behind. The next operation that checks every id clears
the first; the next recomputation of the rows clears the second.

The class provides these operations:

- `setItems`, `addItem`, `addItems`, `insertItem`, `insertItems`, `updateItems`, `deleteItem` and `deleteItems`;
- `beginUpdate` and `endUpdate`;
- `setGrouping` and `refresh`;
- the readers `getItem`, `getLength`, `getItemCount` and `getIdxById`/`getItemById`.

Every operation that can fail returns an `Outcome`. The DataView's source
file is not part of this model, so its behaviour is taken from
`slickDataView.spec.ts`. The module `DataViewScenarios` replays those tests
as methods whose assertions follow from the contracts alone.

Grouping puts the items into groups by the value of one property, with the
groups in the order their keys first appear. The view shows each group as:

- a group row;
- the group's member rows, unless the group is collapsed;
- a totals row, when the level has aggregators.

**The float editor** (modules `FloatEditor`, `NumberText` and `FieldPath`)
covers:

- `getDecimalPlaces`;
- `getInputDecimalSteps`, as a method with its loop;
- the ordered validation ladder of `validate`, with the two regular expressions as a character-level recogniser;
- `isValueChanged`;
- `loadValue`, which records the original value and shows it in the input;
- `applyValue` on an item object, including the dotted-path write.

Numbers are read exactly, as reals, from plain decimal strings.

## Model

| member | source | states |
|---|---|---|
| DataView.DataView.constructor | packages/common/src/core/__tests__/slickDataView.spec.ts:21-24 | a new view has no items and no rows, the id property `id`, no open batch, no grouping, and nothing left unchecked or stale |
| DataView.DataView.AddItem | packages/common/src/core/__tests__/slickDataView.spec.ts:26-39 | fails exactly when, outside bulk mode, the store with the item appended would not have valid ids; from valid ids that is exactly when the item's id is undefined or already present; on success the item follows the old items; a failure changes nothing |
| DataView.DataView.GetLength | packages/common/src/core/__tests__/slickDataView.spec.ts:26-39 | without grouping, outside a batch and with the rows up to date, the number of rows equals the number of items |
| DataView.DataView.GetItemCount | packages/common/src/core/__tests__/slickDataView.spec.ts:26-39 | with valid ids the item count equals the number of distinct ids |
| DataView.DataView.AddItems | packages/common/src/core/__tests__/slickDataView.spec.ts:47-71 | fails exactly when, outside bulk mode, the appended store would not have valid ids; from valid ids that is exactly when the new ids are not valid or not disjoint from the store's; on success the items are appended in order |
| DataView.DataView.BeginUpdate | packages/common/src/core/__tests__/slickDataView.spec.ts:47-56 | opens a batch in the requested mode; while a batch is open it changes nothing; items, lookup and rows are kept |
| DataView.DataView.EndUpdate | packages/common/src/core/__tests__/slickDataView.spec.ts:42-45 | always closes the batch, so the closing call after every batch test passes; fails with the unique-id error exactly when a bulk batch holds undefined or repeated ids, and then leaves the rows as they were and the ids unchecked; otherwise the rows become the items' visible rows |
| DataViewScenarios.BulkBatchDefersValidation | packages/common/src/core/__tests__/slickDataView.spec.ts:258-267 | a bulk batch accepts an item without an id, closing it fails with the unique-id error yet closes it, and a second close passes with the items kept |
| DataView.DataView.Splice | packages/common/src/core/__tests__/slickDataView.spec.ts:58-88 | fails exactly when, outside bulk mode, the spliced store would not have valid ids; from valid ids that is exactly when the inserted ids are not valid or not new; on success the store is the old prefix, the new items, then the old suffix |
| DataView.DataView.InsertItems | packages/common/src/core/__tests__/slickDataView.spec.ts:73-88 | fails as `Splice` does at the clamped `splice` index; on success the items land there, both orders preserved; index 0 prepends |
| DataView.DataView.InsertItem | packages/common/src/core/__tests__/slickDataView.spec.ts:234-256 | fails with the unique-id error exactly when, outside bulk mode, the store with the item inserted would not have valid ids; from valid ids that is exactly when its id is undefined or already present; otherwise the item lands at the clamped `splice` index |
| DataView.SpliceStart | packages/common/src/core/__tests__/slickDataView.spec.ts:108-122 | the insertion index is within the sequence: the request when it is in range, the end when past it, and a negative request counts back from the end, floored at 0 |
| DataView.DataView.SetItems | packages/common/src/core/__tests__/slickDataView.spec.ts:97-106 | fails exactly when, outside bulk mode, the new ids are not valid; otherwise the store is the new items, the id property is the given one or the old one, and outside bulk mode the ids count as checked |
| DataView.CheckIds | packages/common/src/core/__tests__/slickDataView.spec.ts:228-232 | reports success exactly when every id is defined and no two are equal |
| DataView.UpdateIdxById | packages/common/src/core/__tests__/slickDataView.spec.ts:228-232 | the rebuild succeeds exactly when every item has an id, and then yields the reference lookup |
| DataView.EnsureIdUniqueness | packages/common/src/core/__tests__/slickDataView.spec.ts:228-232 | with every id defined, the check that each item is found at its own index succeeds exactly when the ids are distinct |
| DataView.SingleItem | packages/common/src/core/__tests__/slickDataView.spec.ts:250-256 | a single item's ids are valid exactly when its id is defined, and its id set is that id or empty |
| DataView.DataView.GetIdxById | packages/common/src/core/__tests__/slickDataView.spec.ts:89-94 | finds an index exactly for the ids in the store; the item there carries the id; with valid ids it is the id's position |
| DataView.DataView.GetItemById | packages/common/src/core/__tests__/slickDataView.spec.ts:149-162 | returns an item exactly for the ids in the store, and that item carries the id |
| DataView.DataView.DeleteItem | packages/common/src/core/__tests__/slickDataView.spec.ts:89-94 | fails with the invalid-id error exactly when the id is absent; otherwise removes the item at the looked-up index, which with valid ids is removing exactly that id |
| DataView.DataView.DeleteItems | packages/common/src/core/__tests__/slickDataView.spec.ts:124-147 | succeeds exactly when every id is present, in or out of a batch; then exactly the named ids are removed and the rest keep their order; a failure removes nothing |
| DataView.LookUpAll | packages/common/src/core/__tests__/slickDataView.spec.ts:132-147 | yields positions exactly when every id is in the lookup, and then the looked-up positions in order |
| DataView.DataView.UpdateItems | packages/common/src/core/__tests__/slickDataView.spec.ts:149-226 | a length mismatch and an absent id (e.g. -1) are reported as such, in or out of a batch; on success each looked-up position holds the new item and nothing else changes |
| DataView.ReplaceAll | packages/common/src/core/__tests__/slickDataView.spec.ts:149-162 | the loop puts each new item at its position, as the reference replacement does |
| DataView.DataView.Refresh | packages/common/src/core/__tests__/slickDataView.spec.ts:149-162 | outside a batch the rows become the items' visible rows; inside one nothing changes |
| DataView.DataView.SetGrouping | packages/common/src/core/__tests__/slickDataView.spec.ts:271-307 | records the grouping and, outside a batch, the rows become the grouped view of the items |
| DataView.DataView.GetItem | packages/common/src/core/__tests__/slickDataView.spec.ts:271-307 | a row exists exactly for indices within the visible rows; past the end there is none |
| DataViewIds.ConcatIdsValid | packages/common/src/core/__tests__/slickDataView.spec.ts:58-71 | two sequences joined have valid ids exactly when each has and their id sets are disjoint |
| DataViewIds.SpliceIdsValid | packages/common/src/core/__tests__/slickDataView.spec.ts:73-88 | inserting into a valid store keeps the ids valid exactly when the new ids are valid and new |
| DataViewIds.IndexMap | packages/common/src/core/__tests__/slickDataView.spec.ts:89-94 | every key maps to an index whose item carries that id, and every item's id maps to an index at or after its own |
| DataViewIds.IndexMapKeys | packages/common/src/core/__tests__/slickDataView.spec.ts:89-94 | the lookup's keys are exactly the ids in the store |
| DataViewIds.IndexMapAgrees | packages/common/src/core/__tests__/slickDataView.spec.ts:228-232 | the ids are valid exactly when every item has an id and the lookup finds each item at its own index |
| DataViewIds.Position | packages/common/src/core/__tests__/slickDataView.spec.ts:89-94 | the first index whose item carries the id; none exactly when the id is absent |
| DataViewIds.PositionIsIndex | packages/common/src/core/__tests__/slickDataView.spec.ts:89-94 | with valid ids the lookup gives the id's position |
| DataViewIds.UpdatePutsAt | packages/common/src/core/__tests__/slickDataView.spec.ts:149-162 | after the replacement, each id's position holds its new item |
| DataViewIds.UpdateKeepsAt | packages/common/src/core/__tests__/slickDataView.spec.ts:149-162 | after the replacement, an item whose id was not named is unchanged |
| DataViewIds.UpdateKeepsIdsValid | packages/common/src/core/__tests__/slickDataView.spec.ts:149-162 | replacing items by items that carry the same ids keeps the ids valid and the id set unchanged |
| DataViewIds.RemoveIdsMeaning | packages/common/src/core/__tests__/slickDataView.spec.ts:124-129 | removing ids from a valid store leaves valid ids, the id set minus the removed ids, and one item per remaining id |
| DataViewIds.RemoveIdsKeepsOrder | packages/common/src/core/__tests__/slickDataView.spec.ts:124-129 | removing ids keeps the survivors in their order: the result is a subsequence of the items that holds every item whose id is not removed and no item whose id is |
| DataViewIds.RemoveAtPosition | packages/common/src/core/__tests__/slickDataView.spec.ts:89-94 | with valid ids, cutting out the id's position is the same as removing that id |
| DataViewIds.RemoveIndexed | packages/common/src/core/__tests__/slickDataView.spec.ts:163-167 | cutting out the looked-up index removes exactly that id and keeps the ids valid |
| DataViewScenarios.RemoveSmithAndJane | packages/common/src/core/__tests__/slickDataView.spec.ts:108-129 | deleting ids 3 and 1 from John, Smith, Ronald and Jane leaves John and Ronald |
| DataViewScenarios.DoeFamily | packages/common/src/core/__tests__/slickDataView.spec.ts:271-307 | two Doe items grouped on lastName show one group row of count 2, no totals and the formatted title, then the two items |
| Grouping.GroupKeys | packages/common/src/core/__tests__/slickDataView.spec.ts:271-307 | the keys are distinct, every item's key is among them, and each comes from some item |
| Grouping.FirstWithKey | packages/common/src/core/__tests__/slickDataView.spec.ts:271-307 | the position of the first item carrying the key: every earlier item carries another key, and the length when no item carries it |
| Grouping.GroupKeysFirstAppearance | packages/common/src/core/__tests__/slickDataView.spec.ts:271-307 | the keys come in the order of their first appearance: each first appears at some item, and of two keys the earlier one first appears earlier |
| Grouping.GroupRowsShape | packages/common/src/core/__tests__/slickDataView.spec.ts:290-352 | a group's rows open with its group row and end with a totals row exactly when it has totals and they are shown |
| Grouping.GroupRowsGroups | packages/common/src/core/__tests__/slickDataView.spec.ts:290-306 | the only group row among a group's rows is the group's own |
| Grouping.FlattenShowsEachGroup | packages/common/src/core/__tests__/slickDataView.spec.ts:290-306 | the group rows of the flattened groups are exactly the groups, in order |
| Grouping.FlattenOpensWithFirstGroup | packages/common/src/core/__tests__/slickDataView.spec.ts:290 | the flattened groups open with the first group's row |
| Grouping.GroupedViewGroups | packages/common/src/core/__tests__/slickDataView.spec.ts:290-306 | the grouped view has one group row per distinct key, in first-appearance order, and opens with a group row when there are items |
| Grouping.MembersHaveKey | packages/common/src/core/__tests__/slickDataView.spec.ts:271-307 | a group's members are items of the store carrying the group's key |
| Grouping.GroupsPartitionItems | packages/common/src/core/__tests__/slickDataView.spec.ts:271-307 | the groups' members together are exactly the items, as a multiset |
| Grouping.GroupedViewShowsEachItemOnce | packages/common/src/core/__tests__/slickDataView.spec.ts:271-307 | with expanded groups the item rows of the grouped view are a permutation of the items |
| Grouping.UngroupedViewIsItems | packages/common/src/core/__tests__/slickDataView.spec.ts:26-39 | without grouping the view is one row per item, in order |
| Grouping.SharedKeyGrouping | packages/common/src/core/__tests__/slickDataView.spec.ts:271-353 | items sharing one key form one group of level 0 whose count, rows, value and title are as asserted, then the item rows, then a totals row when aggregators exist and totals are shown |
| Grouping.SumOverNonNumericFieldIsZero | packages/common/src/core/__tests__/slickDataView.spec.ts:341-351 | a Sum over a field that holds no number on any member totals 0 |
| FloatEditor.DecimalPlaces | packages/common/src/editors/floatEditor.ts:97-105 | null exactly for an explicit falsy setting other than 0 (and other than undefined); any other result is 0 or truthy, never undefined |
| FloatEditor.DecimalPlacesCases | packages/common/src/editors/floatEditor.ts:97-105 | a present, truthy or zero setting is returned; an absent one gives the default 0; null comes only from an explicit falsy setting other than 0 |
| FloatEditor.InputDecimalSteps | packages/common/src/editors/floatEditor.ts:107-118 | the loop builds the step text for the places, a null count counting as 0 |
| FloatEditor.StepTextMeaning | packages/common/src/editors/floatEditor.ts:107-118 | with no places the step is the whole number 1; with d places it has exactly d fraction digits, passes the d-places pattern but not the (d-1)-places one, and reads as 10^-d, whose product with 10^d is 1 |
| NumberText.NegPow10Inverse | packages/common/src/editors/floatEditor.ts:114-116 | the step's value 10^-d times 10^d is 1 |
| FloatEditor.CustomValidatorDecides | packages/common/src/editors/floatEditor.ts:217-218 | a custom validator's result is returned unchanged; the editor's validator wins over the column's |
| FloatEditor.Ladder | packages/common/src/editors/floatEditor.ts:214-254 | a custom validator's result is returned as is; otherwise the result is valid exactly when the required, number-shape and decimal checks pass and the bounds raised nothing, a valid result has the empty message, and the first check that fails decides the message: an empty required input the required message, a bad number shape the valid-number message whatever the bounds and places, a bound failure its own message whatever the decimals, and the decimal-count message exactly when every earlier check passed |
| FloatEditor.BoundsAsWritten | packages/common/src/editors/floatEditor.ts:226-243 | as written, no bound failure exactly when the number lies strictly inside every bound that is set; no number, no failure |
| FloatEditor.Bounds | packages/common/src/editors/floatEditor.ts:226-243 | with both bounds, no failure exactly when min ≤ v ≤ max; with one bound, exactly when v lies strictly beyond it; no number, no failure |
| FloatEditor.ValidateAsWritten | packages/common/src/editors/floatEditor.ts:200-254 | without a custom validator, a text is valid exactly when its shape passes and its number, if any, lies strictly inside every bound that is set |
| FloatEditor.Validate | packages/common/src/editors/floatEditor.ts:200-254 | without a custom validator, a text is valid exactly when its shape passes and its number, if any, lies in the range of two bounds ends included, or strictly beyond a single bound |
| FloatEditor.AsWrittenIsStricter | packages/common/src/editors/floatEditor.ts:226-243 | whatever the written checks accept the corrected ones accept with the same result, and the two differ only on a number at an end of a range of two bounds |
| FloatEditor.AsWrittenBoundBeforeDecimals | packages/common/src/editors/floatEditor.ts:226-249 | as written, a well-shaped number outside a range of two bounds, at or below a lone minimum, or at or above a lone maximum gets that bound's message, whatever its number of decimals |
| FloatEditor.ValidationMessages | packages/common/src/editors/floatEditor.ts:200-254 | a valid result has the empty message; a failure carries the custom error message when one is set, a default message otherwise |
| FloatEditor.RequiredEmptyFails | packages/common/src/editors/floatEditor.ts:219-221 | a required, empty input fails first with the required-field message |
| FloatEditor.ZeroPlacesShape | packages/common/src/editors/floatEditor.ts:222 | with 0 places a valid input is numeric with a digit after the optional sign, and the empty input is rejected |
| NumberText.WholeNumberPatternShape | packages/common/src/editors/floatEditor.ts:222 | the 0-places pattern accepts exactly the numeric strings that have a digit before any point |
| NumberText.ScanIsShape | packages/common/src/editors/floatEditor.ts:222 | the character-by-character recogniser agrees on every string with the reading by sign, digits, point and digits |
| NumberText.DecimalPatternOnNumbers | packages/common/src/editors/floatEditor.ts:244 | on numeric input the N-places pattern holds exactly when at most N digits follow the point |
| FloatEditor.PlacesBoundFractionDigits | packages/common/src/editors/floatEditor.ts:244 | with N > 0 places a valid non-empty input has at most N fraction digits, and the empty input is valid exactly when not required |
| FloatEditor.ValidWithinBounds | packages/common/src/editors/floatEditor.ts:226-243 | a valid number lies within both bounds inclusively when both are set, strictly beyond a single bound otherwise |
| FloatEditor.BothBoundsInclusive | packages/common/src/editors/floatEditor.ts:226-231 | with both bounds, a well-shaped number is valid exactly when min ≤ v ≤ max |
| FloatEditor.MinOnlyExclusive | packages/common/src/editors/floatEditor.ts:232-237 | with only a minimum, a well-shaped number is valid exactly when v > min |
| FloatEditor.MaxOnlyExclusive | packages/common/src/editors/floatEditor.ts:238-243 | with only a maximum, a well-shaped number is valid exactly when v < max |
| FloatEditor.AsWrittenRejectsRangeEnds | packages/common/src/editors/floatEditor.ts:226-243 | as written, with both bounds set, a number equal to either bound is rejected |
| FloatEditor.AsWrittenRangeCounterexample | packages/common/src/editors/floatEditor.ts:226-243 | with range 0 to 10, the input "0" is refused with the minimum message as written, and accepted by the corrected ladder |
| FloatEditor.ValueChanged | packages/common/src/editors/floatEditor.ts:145-152 | away from ENTER with save-on-enter, no change exactly when the text equals the original text or is empty over a null original; ENTER with save-on-enter is always a change; a number or undefined original always differs from the text |
| FloatEditor.SavedValue | packages/common/src/editors/floatEditor.ts:133-134 | the stored value is the state itself, string or number, or ''; a state whose text does not validate is stored as ''; whatever the written `applyValue` would store as the state is stored, and a state it refuses is stored as '' unless its text reads as an end of a range of two bounds |
| FloatEditor.StateText | packages/common/src/editors/floatEditor.ts:201 | the text the checks read: the input's text for an undefined state, a string state itself, and otherwise the state's conversion to text |
| FloatEditor.Editor.constructor | packages/common/src/editors/floatEditor.ts:13-15 | a new editor has an empty input, an undefined original value and no key yet |
| FloatEditor.Editor.KeyDown | packages/common/src/editors/floatEditor.ts:71-76 | the listener records the last key |
| FloatEditor.Editor.SetValue | packages/common/src/editors/floatEditor.ts:124-126 | the input holds the given text |
| FloatEditor.Editor.LoadValue | packages/common/src/editors/floatEditor.ts:154-172 | with a field the item holds, or a dotted field, the original becomes the item's value, fixed to the places when it is truthy or 0 and places are set, and the input shows it; an original loaded as text then counts as unchanged unless ENTER forces a save; otherwise nothing changes |
| FloatEditor.Editor.IsValueChanged | packages/common/src/editors/floatEditor.ts:145-152 | away from ENTER with save-on-enter, no change exactly when the input equals the original text or is empty over a null original; ENTER with save-on-enter reports a change |
| FloatEditor.Editor.ApplyValue | packages/common/src/editors/floatEditor.ts:128-143 | with a field, the `SavedValue` of the state, checked on its `StateText`, is written: the state itself, number or string, when it validates, '' otherwise; through the deep path when the field's first '.' is past index 0; the value reads back, and no other top-level property changes; without a field the item is unchanged |
| FieldPath.Split | packages/common/src/editors/floatEditor.ts:131 | splitting on '.' gives at least one part, none holding a '.' |
| FieldPath.IsComplexField | packages/common/src/editors/floatEditor.ts:131 | a field is written as a path exactly when it holds a '.' and does not start with one, i.e. its first '.' is past index 0 |
| FieldPath.JoinSplit | packages/common/src/editors/floatEditor.ts:131-138 | joining the parts with '.' gives the field back |
| FieldPath.SetPath | packages/common/src/editors/floatEditor.ts:137-138 | the deep write adds the path's first property and keeps every other top-level property |
| FieldPath.GetSetPath | packages/common/src/editors/floatEditor.ts:137-138 | a value written at a path reads back from that path |
| FieldPath.WriteField | packages/common/src/editors/floatEditor.ts:137-141 | a field written, plain or dotted, reads back as the written value, and only its top-level property changes |

## Left out

- `slickDataview.ts` is not part of this model. The DataView's behaviour is fixed by the tests where they pin it. Elsewhere these choices were made:
  - a failing operation leaves the store unchanged;
  - a failed `endUpdate` closes the batch before it reports, and does not recompute the rows;
  - the id lookup is rebuilt after every change, in bulk mode too;
  - a second `beginUpdate` inside a batch changes nothing.
- An undefined id is reported with the unique-id error (`NonUniqueId`), as the tests expect. The model has no separate error for it.
- DataView.DataView.GetItem: states only that a row exists exactly within range and is one of the rows, not which row. The scenarios read the rows directly.
- DataView.DataView.DeleteItem: where ids may repeat (in bulk mode, or after a failed `endUpdate`), it removes the item at the looked-up index (the last one carrying the id). Removing exactly that id is proved only for valid ids.
- `updateItem` (single), filtering, sorting, paging, the group comparer and multi-level grouping are not modelled. No test exercises them.
- Change notifications, row diffs and rendering are not modelled. They are events, not data.
- Group rows omit `groupingKey`, `selectChecked` and the totals row's back-reference to its group. The title formatter is an uninterpreted parameter.
- Sum is the only aggregator modelled.
- The float editor's DOM work is not modelled: `init`, `destroy`, `focus`, the focus-out listener and `save`.
- `serializeValue` is not modelled. It depends on `toFixed`/`parseFloat` rounding.
- FloatEditor.Editor.LoadValue: `toFixed` and the conversion of a non-string value to text are parameters, so the formatted text itself is not modelled. `select()` on the input is not modelled.
- FloatEditor.Editor.ApplyValue: a custom validator receives the state's text, where the code hands it the state itself, such as the number `serializeValue` returns. The conversion of a non-string state to text is a parameter.
- FloatEditor.Editor.ApplyValue: it stores the state by the corrected checks of the finding below. At an end of a range of two bounds it stores the state where the code as written stores ''. Everywhere else it stores what the code stores: the contract of `FloatEditor.SavedValue` states both directions against the written checks, away from those range ends.
- Number reading covers plain decimal strings only: a sign, digits and at most one point. Whitespace, exponents, hex, `Infinity` and binary floating-point rounding are not modelled. Values are exact reals.
- FloatEditor.Places: a decimal-places setting that is not a whole number counts as null.
- `minValue`/`maxValue` are either a number or undefined. A `null` bound is not modelled.
- The KeyCode enum is reduced to ENTER and any other key. Keys other than ENTER only matter to the listener's propagation control.
- `setDeepValue` in `utilities.ts` is not part of this model. FieldPath.SetPath creates or replaces the objects along the path, then writes the value.
- The `Constants` message texts are not part of this model. A message is named by its constant, with its substituted values.

## Findings

| source | as written | input that shows it | evidently intended | confidence | as-written member | corrected member |
|---|---|---|---|---|---|---|
| packages/common/src/editors/floatEditor.ts:226-243 | when both minValue and maxValue are set, the "min only" and "max only" checks still run after the between check, so a value equal to either bound is rejected | minValue 0, maxValue 10, input "0": fails with the minimum message | with both bounds the range is inclusive, and the exclusive checks apply only when a single bound is set | not executed; the comments mark the two checks as single-bound | FloatEditor.AsWrittenRangeCounterexample | FloatEditor.BothBoundsInclusive |

=== FILE: data_view.dfy ===
/**
 * The data view: the grid's item store with its id lookup, batched
 * updates, and the visible row sequence it recomputes from the items and
 * the grouping.
 */
module DataView {
  import opened Wrappers
  import opened Values
  import opened Grouping
  import opened DataViewIds

  /** The errors the store raises. */
  datatype DataViewError =
    | InvalidId      // "[SlickGrid DataView] Invalid id"
    | NonUniqueId    // "[SlickGrid DataView] Each data element must implement a unique 'id' property"
    | LengthMismatch // updateItems given different numbers of ids and items

  const DefaultIdProperty: string := "id"

  /**
   * Rebuilds the id lookup from the front; stops and reports failure at
   * the first item without an id.
   */
  method UpdateIdxById(items: seq<Record>, p: string) returns (index: map<Value, nat>, ok: bool)
    ensures ok == AllIdsDefined(items, p)
    ensures ok ==> index == IndexMap(items, p)
  {
    index := map[];
    var i := 0;
    while i < |items|
      invariant 0 <= i <= |items|
      invariant index == IndexMap(items[..i], p)
      invariant AllIdsDefined(items[..i], p)
    {
      var id := IdOf(items[i], p);
      if id.None? {
        AllIdsDefinedMeaning(items, p);
        return index, false;
      }
      assert items[..i + 1][..i] == items[..i];
      index := index[id.value := i];
      i := i + 1;
    }
    assert items[..i] == items;
    return index, true;
  }

  /**
   * With every id defined and the lookup rebuilt, checks that each item
   * is found at its own position, which fails exactly when two items
   * share an id.
   */
  method EnsureIdUniqueness(items: seq<Record>, p: string, index: map<Value, nat>) returns (ok: bool)
    requires forall i :: 0 <= i < |items| ==> IdOf(items[i], p).Some?
    requires index == IndexMap(items, p)
    ensures ok == IdsValid(items, p)
  {
    var i := 0;
    while i < |items|
      invariant 0 <= i <= |items|
      invariant forall j :: 0 <= j < i ==> index[IdOf(items[j], p).value] == j
    {
      var id := IdOf(items[i], p).value;
      if index[id] != i {
        NotFoundMeansInvalid(items, p, i);
        return false;
      }
      i := i + 1;
    }
    EachFoundMeansValid(items, p);
    return true;
  }

  /** The ids pass exactly when they are all defined and distinct. */
  method CheckIds(items: seq<Record>, p: string) returns (ok: bool)
    ensures ok == IdsValid(items, p)
  {
    var index;
    index, ok := UpdateIdxById(items, p);
    AllIdsDefinedMeaning(items, p);
    if ok {
      ok := EnsureIdUniqueness(items, p, index);
    }
  }

  /** Looks every id up before anything changes: their positions, or nothing if one is missing. */
  method LookUpAll(index: map<Value, nat>, ids: seq<Value>) returns (ps: Option<seq<nat>>)
    ensures ps.Some? <==> forall k :: 0 <= k < |ids| ==> ids[k] in index
    ensures ps.Some? ==> ps.value == Positions(index, ids)
  {
    var positions: seq<nat> := [];
    var k := 0;
    while k < |ids|
      invariant 0 <= k <= |ids|
      invariant forall j :: 0 <= j < k ==> ids[j] in index
      invariant positions == Positions(index, ids[..k])
    {
      if ids[k] !in index {
        return None;
      }
      assert ids[..k + 1][..k] == ids[..k];
      positions := positions + [index[ids[k]]];
      k := k + 1;
    }
    assert ids[..k] == ids;
    return Some(positions);
  }

  /** Puts each `xs[k]` at position `ps[k]`, in order. */
  method ReplaceAll(items: seq<Record>, ps: seq<nat>, xs: seq<Record>) returns (updated: seq<Record>)
    requires |ps| == |xs| && forall k :: 0 <= k < |ps| ==> ps[k] < |items|
    ensures updated == Replace(items, ps, xs)
  {
    updated := items;
    var k := 0;
    while k < |ps|
      invariant 0 <= k <= |ps|
      invariant updated == Replace(items, ps[..k], xs[..k])
    {
      assert ps[..k + 1][..k] == ps[..k];
      assert xs[..k + 1][..k] == xs[..k];
      updated := updated[ps[k] := xs[k]];
      k := k + 1;
    }
    assert ps[..k] == ps && xs[..k] == xs;
  }

  /** Where `splice(start, 0, ...)` inserts in a sequence of `len` elements. */
  function SpliceStart(start: int, len: nat): (at: nat)
    ensures at <= len
    ensures 0 <= start <= len ==> at == start
    ensures start > len ==> at == len
    ensures start < 0 ==> at == (if len + start < 0 then 0 else len + start)
  {
    if start < 0 then (if len + start < 0 then 0 else len + start)
    else if start > len then len
    else start
  }

  class DataView {
    var items: seq<Record>
    var idProperty: string
    var idxById: map<Value, nat>
    var suspended: bool   // between beginUpdate and endUpdate
    var bulk: bool        // the open batch defers id validation to endUpdate
    var grouping: Option<GroupingInfo>
    var rows: seq<Row>    // the visible rows the grid reads
    ghost var idsUnchecked: bool  // a bulk batch closed with invalid ids, not checked since
    ghost var rowsStale: bool     // that failed close did not recompute the rows

    /**
     * The lookup is rebuilt from the items; outside a bulk batch the ids
     * are valid; outside any batch the rows are those of the items.
     */
    ghost predicate Valid()
      reads this
    {
      && idxById == IndexMap(items, idProperty)
      && (bulk ==> suspended)
      && (!bulk && !idsUnchecked ==> IdsValid(items, idProperty))
      && (!suspended && !rowsStale ==> rows == Visible(items, grouping))
    }

    constructor ()
      ensures Valid()
      ensures items == [] && idProperty == DefaultIdProperty && rows == []
      ensures !suspended && !bulk && grouping == None
      ensures !idsUnchecked && !rowsStale
    {
      items := [];
      idProperty := DefaultIdProperty;
      idxById := map[];
      suspended := false;
      bulk := false;
      grouping := None;
      rows := [];
      idsUnchecked := false;
      rowsStale := false;
    }

    /** The index of the item with id `id`, when there is one. */
    function GetIdxById(id: Value): (r: Option<nat>)
      requires Valid()
      reads this
      ensures r.None? <==> id !in IdSet(items, idProperty)
      ensures r.Some? ==> r.value < |items| && IdOf(items[r.value], idProperty) == Some(id)
      ensures IdsValid(items, idProperty) ==> r == Position(items, idProperty, id)
    {
      if id !in idxById then None
      else
        PositionIsIndexWhenValid(items, idProperty, id);
        Some(idxById[id])
    }

    /** The item with id `id`, when there is one. */
    function GetItemById(id: Value): (r: Option<Record>)
      requires Valid()
      reads this
      ensures r.Some? <==> id in IdSet(items, idProperty)
      ensures r.Some? ==> IdOf(r.value, idProperty) == Some(id)
    {
      match GetIdxById(id)
      case None => None
      case Some(i) => Some(items[i])
    }

    /** The visible row at `i`, or nothing past the end. */
    function GetItem(i: int): (r: Option<Row>)
      reads this
      ensures r.Some? <==> 0 <= i < |rows|
      ensures r.Some? ==> r.value in rows
    {
      if 0 <= i < |rows| then Some(rows[i]) else None
    }

    /** `getLength()`: the number of visible rows; without grouping, outside a batch, one per item. */
    function GetLength(): (n: nat)
      requires Valid()
      reads this
      ensures !suspended && !rowsStale && grouping.None? ==> n == |items|
    {
      UngroupedViewIsItems(items); |rows|
    }

    /** `getItemCount()`: the number of items; with valid ids, the number of distinct ids. */
    function GetItemCount(): (n: nat)
      requires Valid()
      reads this
      ensures IdsValid(items, idProperty) ==> n == |IdSet(items, idProperty)|
    {
      IdsValidCardWhenValid(items, idProperty); |items|
    }

    /** Stores new items, rebuilds the lookup and, outside a batch, the rows. */
    method Commit(newItems: seq<Record>, p: string)
      requires bulk ==> suspended
      requires !bulk && !idsUnchecked ==> IdsValid(newItems, p)
      modifies this
      ensures Valid()
      ensures items == newItems && idProperty == p
      ensures suspended == old(suspended) && bulk == old(bulk) && grouping == old(grouping)
      ensures idsUnchecked == old(idsUnchecked)
      ensures suspended ==> rows == old(rows) && rowsStale == old(rowsStale)
      ensures !suspended ==> rows == Visible(newItems, grouping) && !rowsStale
    {
      items := newItems;
      idProperty := p;
      idxById := IndexMap(newItems, p);
      if !suspended {
        rows := Visible(newItems, grouping);
        rowsStale := false;
      }
    }

    /** Opens a batch; while one is open a second call changes nothing. */
    method BeginUpdate(bulkUpdate: bool)
      requires Valid()
      modifies this
      ensures Valid()
      ensures old(suspended) ==> unchanged(this)
      ensures !old(suspended) ==> suspended && bulk == bulkUpdate
      ensures idsUnchecked == old(idsUnchecked) && rowsStale == old(rowsStale)
      ensures items == old(items) && idProperty == old(idProperty) && idxById == old(idxById)
      ensures grouping == old(grouping) && rows == old(rows)
    {
      if !suspended {
        suspended := true;
        bulk := bulkUpdate;
      }
    }

    /**
     * Closes the batch, whatever happens next: a bulk batch then validates
     * the ids, and fails without recomputing the rows when they are not
     * all defined and distinct. Either way the batch is closed, so a
     * second call passes.
     */
    method EndUpdate() returns (o: Outcome<DataViewError>)
      requires Valid()
      modifies this
      ensures Valid()
      ensures !suspended && !bulk
      ensures o.Fail? <==> old(bulk) && !IdsValid(old(items), old(idProperty))
      ensures o.Fail? ==> o == Fail(NonUniqueId) && rows == old(rows) && idsUnchecked && rowsStale
      ensures o.Pass? ==> rows == Visible(items, grouping) && !rowsStale
      ensures o.Pass? ==> idsUnchecked == (old(idsUnchecked) && !old(bulk))
      ensures items == old(items) && idProperty == old(idProperty) && idxById == old(idxById)
      ensures grouping == old(grouping)
    {
      var wasBulk := bulk;
      suspended := false;
      bulk := false;
      if wasBulk {
        var ok := CheckIds(items, idProperty);
        if !ok {
          idsUnchecked := true;
          rowsStale := true;
          return Fail(NonUniqueId);
        }
        idsUnchecked := false;
      }
      rows := Visible(items, grouping);
      rowsStale := false;
      return Pass;
    }

    /**
     * Replaces the whole store, switching the id property when one is
     * given; outside a bulk batch the new ids must be defined and distinct.
     */
    method SetItems(newItems: seq<Record>, objectIdProperty: Option<string>) returns (o: Outcome<DataViewError>)
      requires Valid()
      modifies this
      ensures Valid()
      ensures var p := if objectIdProperty.Some? then objectIdProperty.value else old(idProperty);
        && (o.Fail? <==> !old(bulk) && !IdsValid(newItems, p))
        && (o.Pass? ==> items == newItems && idProperty == p)
      ensures o.Fail? ==> o == Fail(NonUniqueId) && unchanged(this)
      ensures suspended == old(suspended) && bulk == old(bulk) && grouping == old(grouping)
      ensures o.Pass? && suspended ==> rows == old(rows)
      ensures o.Pass? && !suspended ==> rows == Visible(items, grouping) && !rowsStale
      ensures idsUnchecked == (old(idsUnchecked) && (o.Fail? || bulk))
    {
      var p := if objectIdProperty.Some? then objectIdProperty.value else idProperty;
      if !bulk {
        var ok := CheckIds(newItems, p);
        if !ok {
          return Fail(NonUniqueId);
        }
        idsUnchecked := false;
      }
      Commit(newItems, p);
      return Pass;
    }

    /**
     * Inserts `xs` before position `at`; outside a bulk batch the new ids
     * must be defined, distinct, and new to the store.
     */
    method Splice(at: nat, xs: seq<Record>) returns (o: Outcome<DataViewError>)
      requires Valid() && at <= |items|
      modifies this
      ensures Valid()
      ensures o.Fail? <==> !old(bulk) && !IdsValid(old(items)[..at] + xs + old(items)[at..], idProperty)
      ensures IdsValid(old(items), idProperty) ==> (o.Fail? <==>
        !old(bulk) && !(IdsValid(xs, idProperty) && IdSet(xs, idProperty) !! IdSet(old(items), idProperty)))
      ensures o.Fail? ==> o == Fail(NonUniqueId) && unchanged(this)
      ensures o.Pass? ==> items == old(items)[..at] + xs + old(items)[at..]
      ensures idProperty == old(idProperty) && suspended == old(suspended)
      ensures bulk == old(bulk) && grouping == old(grouping)
      ensures o.Pass? && suspended ==> rows == old(rows)
      ensures o.Pass? && !suspended ==> rows == Visible(items, grouping) && !rowsStale
      ensures idsUnchecked == (old(idsUnchecked) && (o.Fail? || bulk))
    {
      var spliced := items[..at] + xs + items[at..];
      if IdsValid(items, idProperty) {
        SpliceIdsValid(items, at, xs, idProperty);
      }
      if !bulk {
        var ok := CheckIds(spliced, idProperty);
        if !ok {
          return Fail(NonUniqueId);
        }
        idsUnchecked := false;
      }
      Commit(spliced, idProperty);
      return Pass;
    }

    /** Appends one item. */
    method AddItem(item: Record) returns (o: Outcome<DataViewError>)
      requires Valid()
      modifies this
      ensures Valid()
      ensures o.Fail? <==> !old(bulk) && !IdsValid(old(items) + [item], idProperty)
      ensures IdsValid(old(items), idProperty) ==> (o.Fail? <==>
        !old(bulk) && (IdOf(item, idProperty).None? || IdOf(item, idProperty).value in IdSet(old(items), idProperty)))
      ensures o.Fail? ==> o == Fail(NonUniqueId) && unchanged(this)
      ensures o.Pass? ==> items == old(items) + [item]
      ensures idProperty == old(idProperty) && suspended == old(suspended)
      ensures bulk == old(bulk) && grouping == old(grouping)
      ensures o.Pass? && suspended ==> rows == old(rows)
      ensures o.Pass? && !suspended ==> rows == Visible(items, grouping) && !rowsStale
      ensures idsUnchecked == (old(idsUnchecked) && (o.Fail? || bulk))
    {
      SingleItem(item, idProperty);
      assert items[..|items|] + [item] + items[|items|..] == items + [item];
      o := Splice(|items|, [item]);
    }

    /** Appends items in order. */
    method AddItems(xs: seq<Record>) returns (o: Outcome<DataViewError>)
      requires Valid()
      modifies this
      ensures Valid()
      ensures o.Fail? <==> !old(bulk) && !IdsValid(old(items) + xs, idProperty)
      ensures IdsValid(old(items), idProperty) ==> (o.Fail? <==>
        !old(bulk) && !(IdsValid(xs, idProperty) && IdSet(xs, idProperty) !! IdSet(old(items), idProperty)))
      ensures o.Fail? ==> o == Fail(NonUniqueId) && unchanged(this)
      ensures o.Pass? ==> items == old(items) + xs
      ensures idProperty == old(idProperty) && suspended == old(suspended)
      ensures bulk == old(bulk) && grouping == old(grouping)
      ensures o.Pass? && suspended ==> rows == old(rows)
      ensures o.Pass? && !suspended ==> rows == Visible(items, grouping) && !rowsStale
      ensures idsUnchecked == (old(idsUnchecked) && (o.Fail? || bulk))
    {
      assert items[..|items|] + xs + items[|items|..] == items + xs;
      o := Splice(|items|, xs);
    }

    /** Inserts one item before `insertBefore`, placed as `splice` places it. */
    method InsertItem(insertBefore: int, item: Record) returns (o: Outcome<DataViewError>)
      requires Valid()
      modifies this
      ensures Valid()
      ensures var at := SpliceStart(insertBefore, |old(items)|);
        o.Fail? <==> !old(bulk) && !IdsValid(old(items)[..at] + [item] + old(items)[at..], idProperty)
      ensures IdsValid(old(items), idProperty) ==> (o.Fail? <==>
        !old(bulk) && (IdOf(item, idProperty).None? || IdOf(item, idProperty).value in IdSet(old(items), idProperty)))
      ensures o.Fail? ==> o == Fail(NonUniqueId) && unchanged(this)
      ensures o.Pass? ==> var at := SpliceStart(insertBefore, |old(items)|);
        items == old(items)[..at] + [item] + old(items)[at..]
      ensures idProperty == old(idProperty) && suspended == old(suspended)
      ensures bulk == old(bulk) && grouping == old(grouping)
      ensures o.Pass? && suspended ==> rows == old(rows)
      ensures o.Pass? && !suspended ==> rows == Visible(items, grouping) && !rowsStale
      ensures idsUnchecked == (old(idsUnchecked) && (o.Fail? || bulk))
    {
      SingleItem(item, idProperty);
      o := Splice(SpliceStart(insertBefore, |items|), [item]);
    }

    /** Inserts items in order before `insertBefore`, placed as `splice` places them. */
    method InsertItems(insertBefore: int, xs: seq<Record>) returns (o: Outcome<DataViewError>)
      requires Valid()
      modifies this
      ensures Valid()
      ensures var at := SpliceStart(insertBefore, |old(items)|);
        o.Fail? <==> !old(bulk) && !IdsValid(old(items)[..at] + xs + old(items)[at..], idProperty)
      ensures IdsValid(old(items), idProperty) ==> (o.Fail? <==>
        !old(bulk) && !(IdsValid(xs, idProperty) && IdSet(xs, idProperty) !! IdSet(old(items), idProperty)))
      ensures o.Fail? ==> o == Fail(NonUniqueId) && unchanged(this)
      ensures o.Pass? ==> var at := SpliceStart(insertBefore, |old(items)|);
        items == old(items)[..at] + xs + old(items)[at..]
      ensures idProperty == old(idProperty) && suspended == old(suspended)
      ensures bulk == old(bulk) && grouping == old(grouping)
      ensures o.Pass? && suspended ==> rows == old(rows)
      ensures o.Pass? && !suspended ==> rows == Visible(items, grouping) && !rowsStale
      ensures idsUnchecked == (old(idsUnchecked) && (o.Fail? || bulk))
    {
      o := Splice(SpliceStart(insertBefore, |items|), xs);
    }

    /**
     * Replaces the items with ids `ids` by `newItems`, position for
     * position. Every id is looked up before anything changes; outside a
     * bulk batch the result's ids must stay defined and distinct.
     */
    method UpdateItems(ids: seq<Value>, newItems: seq<Record>) returns (o: Outcome<DataViewError>)
      requires Valid()
      modifies this
      ensures Valid()
      ensures o == Fail(LengthMismatch) <==> |ids| != |newItems|
      ensures o == Fail(InvalidId) <==>
        |ids| == |newItems| && exists k :: 0 <= k < |ids| && ids[k] !in IdSet(old(items), idProperty)
      ensures o.Fail? ==> unchanged(this)
      ensures o.Pass? ==> forall k :: 0 <= k < |ids| ==> ids[k] in IdSet(old(items), idProperty)
      ensures o.Pass? || o == Fail(NonUniqueId) ==>
        && (forall k :: 0 <= k < |ids| ==> ids[k] in old(idxById))
        && (o.Pass? <==> old(bulk) || IdsValid(Replace(old(items), Positions(old(idxById), ids), newItems), idProperty))
      ensures o.Pass? ==> items == Replace(old(items), Positions(old(idxById), ids), newItems)
      ensures idProperty == old(idProperty) && suspended == old(suspended)
      ensures bulk == old(bulk) && grouping == old(grouping)
      ensures o.Pass? && suspended ==> rows == old(rows)
      ensures o.Pass? && !suspended ==> rows == Visible(items, grouping) && !rowsStale
      ensures idsUnchecked == (old(idsUnchecked) && (o.Fail? || bulk))
    {
      if |ids| != |newItems| {
        return Fail(LengthMismatch);
      }
      IndexMapKeys(items, idProperty);
      var positions := LookUpAll(idxById, ids);
      if positions.None? {
        return Fail(InvalidId);
      }
      var updated := ReplaceAll(items, positions.value, newItems);
      if !bulk {
        var ok := CheckIds(updated, idProperty);
        if !ok {
          return Fail(NonUniqueId);
        }
        idsUnchecked := false;
      }
      Commit(updated, idProperty);
      return Pass;
    }

    /** Removes the item with id `id`. */
    method DeleteItem(id: Value) returns (o: Outcome<DataViewError>)
      requires Valid()
      modifies this
      ensures Valid()
      ensures o.Fail? <==> id !in IdSet(old(items), idProperty)
      ensures o.Fail? ==> o == Fail(InvalidId) && unchanged(this)
      ensures o.Pass? ==> id in old(idxById) && var i := old(idxById)[id];
        items == old(items)[..i] + old(items)[i + 1..]
      ensures o.Pass? && IdsValid(old(items), idProperty) ==> items == RemoveIds(old(items), idProperty, {id})
      ensures idProperty == old(idProperty) && suspended == old(suspended)
      ensures bulk == old(bulk) && grouping == old(grouping)
      ensures o.Pass? && suspended ==> rows == old(rows)
      ensures o.Pass? && !suspended ==> rows == Visible(items, grouping) && !rowsStale
      ensures idsUnchecked == old(idsUnchecked)
    {
      IndexMapKeys(items, idProperty);
      if id !in idxById {
        return Fail(InvalidId);
      }
      var i := idxById[id];
      var rest := items[..i] + items[i + 1..];
      if IdsValid(items, idProperty) {
        RemoveIndexed(items, idProperty, id);
      }
      Commit(rest, idProperty);
      return Pass;
    }

    /** Removes the items with ids `ids`; every id is looked up before anything is removed. */
    method DeleteItems(ids: seq<Value>) returns (o: Outcome<DataViewError>)
      requires Valid()
      modifies this
      ensures Valid()
      ensures o.Pass? <==> forall k :: 0 <= k < |ids| ==> ids[k] in IdSet(old(items), idProperty)
      ensures o.Fail? ==> o == Fail(InvalidId) && unchanged(this)
      ensures o.Pass? ==> items == RemoveIds(old(items), idProperty, set x | x in ids)
      ensures idProperty == old(idProperty) && suspended == old(suspended)
      ensures bulk == old(bulk) && grouping == old(grouping)
      ensures o.Pass? && suspended ==> rows == old(rows)
      ensures o.Pass? && !suspended ==> rows == Visible(items, grouping) && !rowsStale
      ensures idsUnchecked == old(idsUnchecked)
    {
      IndexMapKeys(items, idProperty);
      var positions := LookUpAll(idxById, ids);
      if positions.None? {
        return Fail(InvalidId);
      }
      var dead := set x | x in ids;
      if IdsValid(items, idProperty) {
        RemoveIdsValid(items, idProperty, dead);
      }
      Commit(RemoveIds(items, idProperty, dead), idProperty);
      return Pass;
    }

    /** Groups the rows by `info`; outside a batch the rows are recomputed at once. */
    method SetGrouping(info: GroupingInfo)
      requires Valid()
      modifies this
      ensures Valid()
      ensures grouping == Some(info)
      ensures items == old(items) && idProperty == old(idProperty) && idxById == old(idxById)
      ensures suspended == old(suspended) && bulk == old(bulk)
      ensures idsUnchecked == old(idsUnchecked)
      ensures suspended ==> rows == old(rows) && rowsStale == old(rowsStale)
      ensures !suspended ==> rows == Visible(items, Some(info)) && !rowsStale
    {
      grouping := Some(info);
      if !suspended {
        rows := Visible(items, grouping);
        rowsStale := false;
      }
    }

    /** Recomputes the rows, unless a batch is open. */
    method Refresh()
      requires Valid()
      modifies this
      ensures Valid()
      ensures items == old(items) && idProperty == old(idProperty) && idxById == old(idxById)
      ensures suspended == old(suspended) && bulk == old(bulk) && grouping == old(grouping)
      ensures idsUnchecked == old(idsUnchecked)
      ensures suspended ==> rows == old(rows) && rowsStale == old(rowsStale)
      ensures !suspended ==> rows == Visible(items, grouping) && !rowsStale
    {
      if !suspended {
        rows := Visible(items, grouping);
        rowsStale := false;
      }
    }
  }

  /** With valid ids, an id found in the lookup is at its first position. */
  lemma PositionIsIndexWhenValid(items: seq<Record>, p: string, id: Value)
    requires id in IndexMap(items, p)
    ensures IdsValid(items, p) ==> Position(items, p, id) == Some(IndexMap(items, p)[id])
  {
    if IdsValid(items, p) {
      IndexMapKeys(items, p);
      PositionIsIndex(items, p, id);
    }
  }

  /** With valid ids, the items are as many as their ids. */
  lemma IdsValidCardWhenValid(items: seq<Record>, p: string)
    ensures IdsValid(items, p) ==> |IdSet(items, p)| == |items|
  {
    if IdsValid(items, p) {
      IdsValidCard(items, p);
    }
  }

  /** One item's ids are valid exactly when it has an id, and that id is all it carries. */
  lemma SingleItem(item: Record, p: string)
    ensures IdsValid([item], p) <==> IdOf(item, p).Some?
    ensures IdSet([item], p) == if IdOf(item, p).Some? then {IdOf(item, p).value} else {}
  {
    assert [item][0] == item;
    forall id ensures id in IdSet([item], p) <==> IdOf(item, p) == Some(id) {
      IdSetMember([item], p, id);
    }
  }
}

=== FILE: data_view_ids.dfy ===
/**
 * Identity handling of the data view's item store: which property is an
 * item's id, when the ids of a sequence of items are valid, the id-to-index
 * lookup, and the sequence operations the store applies (splice, removal
 * by id, replacement at the positions of ids).
 */
module DataViewIds {
  import opened Wrappers
  import opened Values

  /** The id of an item: its id property, unless missing or `undefined`. */
  function IdOf(item: Record, idProperty: string): Option<Value>
  {
    if idProperty in item && item[idProperty] != Undefined then Some(item[idProperty]) else None
  }

  /** Every item has an id and no two items share one. */
  predicate IdsValid(items: seq<Record>, p: string)
  {
    && (forall i :: 0 <= i < |items| ==> IdOf(items[i], p).Some?)
    && (forall i, j :: 0 <= i < j < |items| ==> IdOf(items[i], p) != IdOf(items[j], p))
  }

  /** Every item has an id, checked from the front. */
  predicate AllIdsDefined(items: seq<Record>, p: string)
  {
    items == [] || (AllIdsDefined(items[..|items| - 1], p) && IdOf(items[|items| - 1], p).Some?)
  }

  lemma {:induction false} AllIdsDefinedMeaning(items: seq<Record>, p: string)
    ensures AllIdsDefined(items, p) <==> forall i :: 0 <= i < |items| ==> IdOf(items[i], p).Some?
  {
    if items != [] {
      var front := items[..|items| - 1];
      AllIdsDefinedMeaning(front, p);
      assert forall i :: 0 <= i < |front| ==> items[i] == front[i];
    }
  }

  /** The ids the items carry. */
  function IdSet(items: seq<Record>, p: string): set<Value>
  {
    set i | 0 <= i < |items| && IdOf(items[i], p).Some? :: IdOf(items[i], p).value
  }

  lemma IdSetMember(items: seq<Record>, p: string, id: Value)
    ensures id in IdSet(items, p) <==> exists i :: 0 <= i < |items| && IdOf(items[i], p) == Some(id)
  {
    if exists i :: 0 <= i < |items| && IdOf(items[i], p) == Some(id) {
      var i :| 0 <= i < |items| && IdOf(items[i], p) == Some(id);
      assert IdOf(items[i], p).value == id;
    }
  }

  lemma IdSetConcat(a: seq<Record>, b: seq<Record>, p: string)
    ensures IdSet(a + b, p) == IdSet(a, p) + IdSet(b, p)
  {
    forall id | id in IdSet(a + b, p) ensures id in IdSet(a, p) + IdSet(b, p) {
      IdSetMember(a + b, p, id);
      var i :| 0 <= i < |a + b| && IdOf((a + b)[i], p) == Some(id);
      if i < |a| {
        IdSetMember(a, p, id);
      } else {
        assert (a + b)[i] == b[i - |a|];
        IdSetMember(b, p, id);
      }
    }
    forall id | id in IdSet(a, p) + IdSet(b, p) ensures id in IdSet(a + b, p) {
      IdSetMember(a + b, p, id);
      if id in IdSet(a, p) {
        IdSetMember(a, p, id);
        var i :| 0 <= i < |a| && IdOf(a[i], p) == Some(id);
        assert (a + b)[i] == a[i];
      } else {
        IdSetMember(b, p, id);
        var i :| 0 <= i < |b| && IdOf(b[i], p) == Some(id);
        assert (a + b)[|a| + i] == b[i];
      }
    }
  }

  /** Ids of a concatenation are valid exactly when both parts are and they share no id. */
  lemma ConcatIdsValid(a: seq<Record>, b: seq<Record>, p: string)
    ensures IdsValid(a + b, p) <==> IdsValid(a, p) && IdsValid(b, p) && IdSet(a, p) !! IdSet(b, p)
  {
    var ab := a + b;
    if IdsValid(ab, p) {
      assert forall i :: 0 <= i < |a| ==> ab[i] == a[i];
      forall i, j | 0 <= i < j < |b| ensures IdOf(b[i], p) != IdOf(b[j], p) {
        assert ab[|a| + i] == b[i] && ab[|a| + j] == b[j];
      }
      forall i | 0 <= i < |b| ensures IdOf(b[i], p).Some? {
        assert ab[|a| + i] == b[i];
      }
      forall i, j | 0 <= i < |a| && 0 <= j < |b| ensures IdOf(a[i], p) != IdOf(b[j], p) {
        assert ab[i] == a[i] && ab[|a| + j] == b[j];
      }
      forall id | id in IdSet(a, p) ensures id !in IdSet(b, p) {
        IdSetMember(a, p, id);
        IdSetMember(b, p, id);
      }
    }
    if IdsValid(a, p) && IdsValid(b, p) && IdSet(a, p) !! IdSet(b, p) {
      forall i | 0 <= i < |ab| ensures IdOf(ab[i], p).Some? {
        if i < |a| { assert ab[i] == a[i]; } else { assert ab[i] == b[i - |a|]; }
      }
      forall i, j | 0 <= i < j < |ab| ensures IdOf(ab[i], p) != IdOf(ab[j], p) {
        if j < |a| {
          assert ab[i] == a[i] && ab[j] == a[j];
        } else if i >= |a| {
          assert ab[i] == b[i - |a|] && ab[j] == b[j - |a|];
        } else {
          assert ab[i] == a[i] && ab[j] == b[j - |a|];
          IdSetMember(a, p, IdOf(a[i], p).value);
          IdSetMember(b, p, IdOf(b[j - |a|], p).value);
        }
      }
    }
  }

  /**
   * Splicing new items into valid items keeps the ids valid exactly when
   * the new items' ids are valid among themselves and new to the store.
   */
  lemma SpliceIdsValid(items: seq<Record>, at: nat, xs: seq<Record>, p: string)
    requires IdsValid(items, p) && at <= |items|
    ensures IdsValid(items[..at] + xs + items[at..], p) <==>
      IdsValid(xs, p) && IdSet(xs, p) !! IdSet(items, p)
  {
    var front, back := items[..at], items[at..];
    assert items == front + back;
    ConcatIdsValid(front, back, p);
    ConcatIdsValid(front + xs, back, p);
    ConcatIdsValid(front, xs, p);
    IdSetConcat(front, xs, p);
    IdSetConcat(front, back, p);
  }

  /**
   * The id-to-index lookup, rebuilt from the front: each id maps to the
   * last position that carries it; items without an id are skipped.
   */
  function IndexMap(items: seq<Record>, p: string): (m: map<Value, nat>)
    ensures forall id :: id in m ==> m[id] < |items| && IdOf(items[m[id]], p) == Some(id)
    ensures forall i :: 0 <= i < |items| && IdOf(items[i], p).Some? ==>
      IdOf(items[i], p).value in m && m[IdOf(items[i], p).value] >= i
  {
    if items == [] then map[]
    else
      var front := items[..|items| - 1];
      var m := IndexMap(front, p);
      assert forall i :: 0 <= i < |front| ==> items[i] == front[i];
      match IdOf(items[|items| - 1], p)
      case None => m
      case Some(id) => m[id := |items| - 1]
  }

  /** The lookup holds exactly the ids the items carry. */
  lemma IndexMapKeys(items: seq<Record>, p: string)
    ensures IndexMap(items, p).Keys == IdSet(items, p)
  {
    forall id ensures id in IndexMap(items, p) <==> id in IdSet(items, p) {
      IdSetMember(items, p, id);
    }
  }

  /** With valid ids, the lookup finds every item at its own position. */
  lemma IndexFindsEach(items: seq<Record>, p: string)
    requires IdsValid(items, p)
    ensures forall i :: 0 <= i < |items| ==> IndexMap(items, p)[IdOf(items[i], p).value] == i
  {
    var m := IndexMap(items, p);
    forall i | 0 <= i < |items| ensures m[IdOf(items[i], p).value] == i {
      var id := IdOf(items[i], p).value;
      var j := m[id];
      assert IdOf(items[j], p) == IdOf(items[i], p);
    }
  }

  /** An item that the lookup does not find at its own position shares its id with another. */
  lemma NotFoundMeansInvalid(items: seq<Record>, p: string, i: nat)
    requires i < |items| && IdOf(items[i], p).Some?
    requires IndexMap(items, p)[IdOf(items[i], p).value] != i
    ensures !IdsValid(items, p)
  {
    if IdsValid(items, p) {
      IndexFindsEach(items, p);
    }
  }

  /** A lookup that finds every item, each having an id, at its own position means the ids are valid. */
  lemma EachFoundMeansValid(items: seq<Record>, p: string)
    requires forall i :: 0 <= i < |items| ==> IdOf(items[i], p).Some?
    requires forall i :: 0 <= i < |items| ==> IndexMap(items, p)[IdOf(items[i], p).value] == i
    ensures IdsValid(items, p)
  {
  }

  /**
   * The lookup agrees with the sequence (every item is found at its own
   * position) exactly when the ids are valid.
   */
  lemma IndexMapAgrees(items: seq<Record>, p: string)
    ensures IdsValid(items, p) <==>
      forall i :: 0 <= i < |items| ==>
        IdOf(items[i], p).Some? && IndexMap(items, p)[IdOf(items[i], p).value] == i
  {
    if IdsValid(items, p) {
      IndexFindsEach(items, p);
    }
  }

  /** The first position whose item has the id `id`. */
  function Position(items: seq<Record>, p: string, id: Value): (r: Option<nat>)
    ensures r.Some? ==> r.value < |items| && IdOf(items[r.value], p) == Some(id)
    ensures r.Some? ==> forall j :: 0 <= j < r.value ==> IdOf(items[j], p) != Some(id)
    ensures r.None? <==> id !in IdSet(items, p)
  {
    IdSetMember(items, p, id);
    if items == [] then None
    else if IdOf(items[0], p) == Some(id) then Some(0)
    else
      IdSetMember(items[1..], p, id);
      assert forall j :: 1 <= j < |items| ==> items[j] == items[1..][j - 1];
      match Position(items[1..], p, id)
      case None => None
      case Some(i) => Some(i + 1)
  }

  /** With valid ids, the first position of an id is the position the lookup gives. */
  lemma PositionIsIndex(items: seq<Record>, p: string, id: Value)
    requires IdsValid(items, p) && id in IdSet(items, p)
    ensures id in IndexMap(items, p) && Position(items, p, id) == Some(IndexMap(items, p)[id])
  {
    IndexMapAgrees(items, p);
    var i := Position(items, p, id).value;
    assert IndexMap(items, p)[IdOf(items[i], p).value] == i;
  }

  /** The positions the lookup `index` gives for the ids `ids`, in order. */
  function Positions(index: map<Value, nat>, ids: seq<Value>): (ps: seq<nat>)
    requires forall k :: 0 <= k < |ids| ==> ids[k] in index
    ensures |ps| == |ids|
    ensures forall k :: 0 <= k < |ids| ==> ps[k] == index[ids[k]]
  {
    if ids == [] then []
    else Positions(index, ids[..|ids| - 1]) + [index[ids[|ids| - 1]]]
  }

  /** The items with `xs[k]` put at position `ps[k]`, in order, a later put winning. */
  function Replace(items: seq<Record>, ps: seq<nat>, xs: seq<Record>): (r: seq<Record>)
    requires |ps| == |xs| && forall k :: 0 <= k < |ps| ==> ps[k] < |items|
    ensures |r| == |items|
  {
    if ps == [] then items
    else Replace(items, ps[..|ps| - 1], xs[..|xs| - 1])[ps[|ps| - 1] := xs[|xs| - 1]]
  }

  /** Replacing leaves every position not named in `ps` as it was. */
  lemma {:induction false} ReplaceKeepsOthers(items: seq<Record>, ps: seq<nat>, xs: seq<Record>, i: nat)
    requires |ps| == |xs| && forall k :: 0 <= k < |ps| ==> ps[k] < |items|
    requires i < |items| && i !in ps
    ensures Replace(items, ps, xs)[i] == items[i]
  {
    if ps != [] {
      var n := |ps| - 1;
      assert i !in ps[..n] by {
        forall k | 0 <= k < n ensures ps[..n][k] != i { assert ps[..n][k] == ps[k]; }
      }
      ReplaceKeepsOthers(items, ps[..n], xs[..n], i);
    }
  }

  /** With distinct positions, replacing puts each new item at its position. */
  lemma {:induction false} ReplacePuts(items: seq<Record>, ps: seq<nat>, xs: seq<Record>, k: nat)
    requires |ps| == |xs| && forall j :: 0 <= j < |ps| ==> ps[j] < |items|
    requires forall j, m :: 0 <= j < m < |ps| ==> ps[j] != ps[m]
    requires k < |ps|
    ensures Replace(items, ps, xs)[ps[k]] == xs[k]
  {
    var n := |ps| - 1;
    if k < n {
      var ps', xs' := ps[..n], xs[..n];
      assert ps'[k] == ps[k] && xs'[k] == xs[k];
      assert forall j, m :: 0 <= j < m < |ps'| ==> ps'[j] == ps[j] && ps'[m] == ps[m];
      ReplacePuts(items, ps', xs', k);
      assert ps[k] != ps[n];
    }
  }

  /** Replacing items by items with the same ids keeps every position's id. */
  lemma {:induction false} ReplaceKeepsIds(items: seq<Record>, p: string, ps: seq<nat>, xs: seq<Record>)
    requires |ps| == |xs| && forall k :: 0 <= k < |ps| ==> ps[k] < |items|
    requires forall k :: 0 <= k < |ps| ==> IdOf(xs[k], p) == IdOf(items[ps[k]], p)
    ensures forall i :: 0 <= i < |items| ==> IdOf(Replace(items, ps, xs)[i], p) == IdOf(items[i], p)
  {
    if ps != [] {
      var n := |ps| - 1;
      assert forall k :: 0 <= k < n ==> ps[..n][k] == ps[k] && xs[..n][k] == xs[k];
      ReplaceKeepsIds(items, p, ps[..n], xs[..n]);
    }
  }

  /** Sequences whose items carry the same ids position by position agree on validity and id set. */
  lemma SameIds(a: seq<Record>, b: seq<Record>, p: string)
    requires |a| == |b| && forall i :: 0 <= i < |a| ==> IdOf(a[i], p) == IdOf(b[i], p)
    ensures IdsValid(a, p) == IdsValid(b, p) && IdSet(a, p) == IdSet(b, p)
  {
    forall id ensures id in IdSet(a, p) <==> id in IdSet(b, p) {
      IdSetMember(a, p, id);
      IdSetMember(b, p, id);
    }
  }

  /** Distinct ids have distinct positions. */
  lemma PositionsDistinct(items: seq<Record>, p: string, ids: seq<Value>)
    requires forall k :: 0 <= k < |ids| ==> ids[k] in IndexMap(items, p)
    requires forall j, k :: 0 <= j < k < |ids| ==> ids[j] != ids[k]
    ensures var ps := Positions(IndexMap(items, p), ids);
      forall j, k :: 0 <= j < k < |ps| ==> ps[j] != ps[k]
  {
    var ps := Positions(IndexMap(items, p), ids);
    forall j, k | 0 <= j < k < |ps| ensures ps[j] != ps[k] {
      assert IdOf(items[ps[j]], p) == Some(ids[j]);
      assert IdOf(items[ps[k]], p) == Some(ids[k]);
    }
  }

  /** An item whose id was not named stays where it was. */
  lemma UpdateKeepsAt(items: seq<Record>, p: string, ids: seq<Value>, xs: seq<Record>, i: nat)
    requires |ids| == |xs| && i < |items| && IdOf(items[i], p).Some?
    requires forall j :: 0 <= j < |ids| ==> ids[j] in IndexMap(items, p)
    requires IdOf(items[i], p).value !in ids
    ensures Replace(items, Positions(IndexMap(items, p), ids), xs)[i] == items[i]
  {
    var ps := Positions(IndexMap(items, p), ids);
    assert i !in ps by {
      forall k | 0 <= k < |ps| ensures ps[k] != i {
        assert IdOf(items[ps[k]], p) == Some(ids[k]);
      }
    }
    ReplaceKeepsOthers(items, ps, xs, i);
  }

  /** Each updated id's new item sits at the first position of that id. */
  lemma UpdatePutsAt(items: seq<Record>, p: string, ids: seq<Value>, xs: seq<Record>, k: nat)
    requires IdsValid(items, p) && |ids| == |xs| && k < |ids|
    requires forall j :: 0 <= j < |ids| ==> ids[j] in IndexMap(items, p)
    requires forall j, m :: 0 <= j < m < |ids| ==> ids[j] != ids[m]
    ensures Position(items, p, ids[k]).Some?
    ensures Replace(items, Positions(IndexMap(items, p), ids), xs)[Position(items, p, ids[k]).value] == xs[k]
  {
    var ps := Positions(IndexMap(items, p), ids);
    PositionsDistinct(items, p, ids);
    PositionIsIndex(items, p, ids[k]);
    ReplacePuts(items, ps, xs, k);
  }

  /** New items carrying the ids they replace leave the ids valid and the same. */
  lemma UpdateKeepsIdsValid(items: seq<Record>, p: string, ids: seq<Value>, xs: seq<Record>)
    requires IdsValid(items, p) && |ids| == |xs|
    requires forall k :: 0 <= k < |ids| ==> ids[k] in IndexMap(items, p)
    requires forall k :: 0 <= k < |ids| ==> IdOf(xs[k], p) == Some(ids[k])
    ensures IdsValid(Replace(items, Positions(IndexMap(items, p), ids), xs), p)
    ensures IdSet(Replace(items, Positions(IndexMap(items, p), ids), xs), p) == IdSet(items, p)
  {
    var ps := Positions(IndexMap(items, p), ids);
    forall k | 0 <= k < |ps| ensures IdOf(xs[k], p) == IdOf(items[ps[k]], p) {
      assert IdOf(items[ps[k]], p) == Some(ids[k]);
    }
    ReplaceKeepsIds(items, p, ps, xs);
    SameIds(Replace(items, ps, xs), items, p);
  }

  /** The items whose id is not in `dead`, in their order; items without an id are kept. */
  function RemoveIds(items: seq<Record>, p: string, dead: set<Value>): (r: seq<Record>)
    ensures |r| <= |items|
  {
    if items == [] then []
    else
      var id := IdOf(items[0], p);
      (if id.Some? && id.value in dead then [] else [items[0]]) + RemoveIds(items[1..], p, dead)
  }

  /** Removing ids takes exactly those ids out of the id set. */
  lemma {:induction false} RemoveIdsIdSet(items: seq<Record>, p: string, dead: set<Value>)
    ensures IdSet(RemoveIds(items, p, dead), p) == IdSet(items, p) - dead
  {
    if items != [] {
      var head, rest := [items[0]], items[1..];
      var id := IdOf(items[0], p);
      var kept := if id.Some? && id.value in dead then [] else head;
      assert items == head + rest;
      assert RemoveIds(items, p, dead) == kept + RemoveIds(rest, p, dead);
      IdSetConcat(head, rest, p);
      IdSetConcat(kept, RemoveIds(rest, p, dead), p);
      RemoveIdsIdSet(rest, p, dead);
      assert IdSet([], p) == {};
      assert IdSet(head, p) == if id.Some? then {id.value} else {};
    }
  }

  /** Removing ids from valid items keeps them valid. */
  lemma {:induction false} RemoveIdsValid(items: seq<Record>, p: string, dead: set<Value>)
    requires IdsValid(items, p)
    ensures IdsValid(RemoveIds(items, p, dead), p)
  {
    if items != [] {
      var head, rest := [items[0]], items[1..];
      var id := IdOf(items[0], p);
      var kept := if id.Some? && id.value in dead then [] else head;
      assert items == head + rest;
      assert RemoveIds(items, p, dead) == kept + RemoveIds(rest, p, dead);
      ConcatIdsValid(head, rest, p);
      RemoveIdsValid(rest, p, dead);
      RemoveIdsIdSet(rest, p, dead);
      ConcatIdsValid(kept, RemoveIds(rest, p, dead), p);
      assert IdSet([], p) == {};
    }
  }

  /** Valid items are as many as their ids. */
  lemma {:induction false} IdsValidCard(items: seq<Record>, p: string)
    requires IdsValid(items, p)
    ensures |IdSet(items, p)| == |items|
  {
    if items != [] {
      var head, rest := [items[0]], items[1..];
      assert items == head + rest;
      ConcatIdsValid(head, rest, p);
      IdSetConcat(head, rest, p);
      IdsValidCard(rest, p);
      assert IdSet(head, p) == {IdOf(items[0], p).value};
    }
  }

  /** An item whose id is among the removed ones. */
  predicate Removed(item: Record, p: string, dead: set<Value>)
  {
    IdOf(item, p).Some? && IdOf(item, p).value in dead
  }

  /** `r` is `s` with some of its items left out, the rest kept in order. */
  predicate Subsequence<T(==)>(r: seq<T>, s: seq<T>)
    decreases |s|
  {
    r == [] || (s != [] && ((r[0] == s[0] && Subsequence(r[1..], s[1..])) || Subsequence(r, s[1..])))
  }

  /**
   * Removing ids keeps the survivors in their order: the result is a
   * subsequence of the items, holds every item whose id is not removed,
   * and holds no item whose id is.
   */
  lemma {:induction false} RemoveIdsKeepsOrder(items: seq<Record>, p: string, dead: set<Value>)
    ensures Subsequence(RemoveIds(items, p, dead), items)
    ensures forall i :: 0 <= i < |items| && !Removed(items[i], p, dead) ==> items[i] in RemoveIds(items, p, dead)
    ensures forall x :: x in RemoveIds(items, p, dead) ==> x in items && !Removed(x, p, dead)
  {
    if items != [] {
      var rest := items[1..];
      var r := RemoveIds(items, p, dead);
      RemoveIdsKeepsOrder(rest, p, dead);
      if Removed(items[0], p, dead) {
        assert r == RemoveIds(rest, p, dead);
      } else {
        assert r == [items[0]] + RemoveIds(rest, p, dead);
        assert r[1..] == RemoveIds(rest, p, dead);
      }
      forall i | 0 <= i < |items| && !Removed(items[i], p, dead)
        ensures items[i] in r
      {
        if i > 0 { assert items[i] == rest[i - 1]; }
      }
    }
  }

  /**
   * Removing ids from valid items keeps the ids valid, removes exactly
   * those ids, and shortens the sequence by one per removed id it held.
   */
  lemma RemoveIdsMeaning(items: seq<Record>, p: string, dead: set<Value>)
    requires IdsValid(items, p)
    ensures IdsValid(RemoveIds(items, p, dead), p)
    ensures IdSet(RemoveIds(items, p, dead), p) == IdSet(items, p) - dead
    ensures |RemoveIds(items, p, dead)| == |IdSet(items, p) - dead|
  {
    RemoveIdsIdSet(items, p, dead);
    RemoveIdsValid(items, p, dead);
    IdsValidCard(RemoveIds(items, p, dead), p);
  }

  /** Removing ids none of the items carry changes nothing. */
  lemma {:induction false} RemoveAbsentIds(items: seq<Record>, p: string, dead: set<Value>)
    requires IdSet(items, p) !! dead
    ensures RemoveIds(items, p, dead) == items
  {
    if items != [] {
      IdSetConcat([items[0]], items[1..], p);
      assert items == [items[0]] + items[1..];
      if IdOf(items[0], p).Some? {
        assert IdOf(items[0], p).value in IdSet([items[0]], p);
      }
      RemoveAbsentIds(items[1..], p, dead);
    }
  }

  /** The rest of a valid store is valid and does not hold the first item's id. */
  lemma IdsValidTail(items: seq<Record>, p: string)
    requires IdsValid(items, p) && items != []
    ensures IdsValid(items[1..], p)
    ensures IdOf(items[0], p).value !in IdSet(items[1..], p)
  {
    var rest := items[1..];
    assert forall j :: 0 <= j < |rest| ==> rest[j] == items[j + 1];
    IdSetMember(rest, p, IdOf(items[0], p).value);
  }

  /** With valid ids, removing the item at an id's position is removing that id. */
  lemma {:induction false} RemoveAtPosition(items: seq<Record>, p: string, id: Value)
    requires IdsValid(items, p) && id in IdSet(items, p)
    ensures var i := Position(items, p, id).value;
      items[..i] + items[i + 1..] == RemoveIds(items, p, {id})
  {
    var i := Position(items, p, id).value;
    var rest := items[1..];
    IdsValidTail(items, p);
    if i == 0 {
      RemoveAbsentIds(rest, p, {id});
      assert items[..0] + items[1..] == rest;
    } else {
      assert rest[i - 1] == items[i];
      IdSetMember(rest, p, id);
      RemoveAtPosition(rest, p, id);
      assert items[..i] + items[i + 1..] == [items[0]] + (rest[..i - 1] + rest[i..]);
    }
  }

  /** Removing the item the lookup finds for `id` is removing that id. */
  lemma RemoveIndexed(items: seq<Record>, p: string, id: Value)
    requires IdsValid(items, p) && id in IndexMap(items, p)
    ensures var i := IndexMap(items, p)[id];
      && i < |items|
      && items[..i] + items[i + 1..] == RemoveIds(items, p, {id})
      && IdsValid(items[..i] + items[i + 1..], p)
  {
    IndexMapKeys(items, p);
    PositionIsIndex(items, p, id);
    RemoveAtPosition(items, p, id);
    RemoveIdsValid(items, p, {id});
  }
}

=== FILE: data_view_scenarios.dfy ===
/**
 * The data view's documented usage, replayed against the contracts of
 * the store: each method is a sequence of calls whose outcome follows
 * from those contracts alone.
 */
module DataViewScenarios {
  import opened Wrappers
  import opened Values
  import opened Grouping
  import opened DataViewIds
  import opened DataView

  function Person(id: Value, name: string, age: real): Record
  {
    map["id" := id, "name" := Str(name), "age" := Num(age)]
  }

  lemma PersonId(id: Value, name: string, age: real)
    ensures IdOf(Person(id, name, age), "id") == if id == Undefined then None else Some(id)
  {
    assert "id" in Person(id, name, age);
  }

  /** Two items added one by one come back in call order, as two rows. */
  method AddItemsInCallOrder()
  {
    var dv := new DataView();
    assert dv.items == [];
    var o := dv.AddItem(JohnDoe());
    o := dv.AddItem(JaneDoe());
    DoeIds();
    assert dv.items == [JohnDoe(), JaneDoe()];
    assert dv.GetLength() == 2 && dv.GetItemCount() == 2;
  }

  /** Inserting before index 1 puts the new item between the two existing ones. */
  method InsertItemAtIndex()
  {
    var dv := new DataView();
    var newcomer := Person(Num(2.0), "Smith", 30.0);
    TwoPeople(newcomer);
    var o := dv.SetItems([John(), Jane()], None);
    assert o.Pass?;
    o := dv.InsertItem(1, newcomer);
    assert o.Pass?;
    assert dv.items == [John(), newcomer, Jane()];
  }

  lemma TwoPeople(newcomer: Record)
    requires newcomer == Person(Num(2.0), "Smith", 30.0)
    ensures IdsValid([John(), Jane()], "id")
    ensures IdOf(newcomer, "id") == Some(Num(2.0)) && Num(2.0) !in IdSet([John(), Jane()], "id")
    ensures [John(), Jane()][..1] + [newcomer] + [John(), Jane()][1..] == [John(), newcomer, Jane()]
  {
    PersonId(Num(0.0), "John", 20.0);
    PersonId(Num(1.0), "Jane", 24.0);
    PersonId(Num(2.0), "Smith", 30.0);
    IdSetMember([John(), Jane()], "id", Num(2.0));
  }

  /** An item without an id is refused outside a batch, and the store is left as it was. */
  method InsertItemWithoutId()
  {
    var dv := new DataView();
    var john, jane, smith := Person(Num(0.0), "John", 20.0), Person(Num(1.0), "Jane", 24.0), Person(Undefined, "Smith", 30.0);
    PersonId(Num(0.0), "John", 20.0);
    PersonId(Num(1.0), "Jane", 24.0);
    PersonId(Undefined, "Smith", 30.0);
    var o := dv.SetItems([john, jane], None);
    assert o.Pass?;
    o := dv.InsertItem(1, smith);
    assert o == Fail(NonUniqueId);
    assert dv.items == [john, jane];
  }

  /** Two items with the same id are refused by setItems. */
  method SetItemsWithDuplicateIds()
  {
    var dv := new DataView();
    var john, jane := Person(Num(0.0), "John", 20.0), Person(Num(0.0), "Jane", 24.0);
    PersonId(Num(0.0), "John", 20.0);
    PersonId(Num(0.0), "Jane", 24.0);
    assert [john, jane][0] == john && [john, jane][1] == jane;
    var o := dv.SetItems([john, jane], None);
    assert o == Fail(NonUniqueId);
    assert dv.items == [];
  }

  /** Deleting with one unknown id fails and removes nothing. */
  method DeleteItemsWithInvalidId()
  {
    var dv := new DataView();
    var john, jane := Person(Num(0.0), "John", 20.0), Person(Num(1.0), "Jane", 24.0);
    PersonId(Num(0.0), "John", 20.0);
    PersonId(Num(1.0), "Jane", 24.0);
    var o := dv.SetItems([john, jane], None);
    assert o.Pass?;
    IdSetMember([john, jane], "id", Num(-1.0));
    assert [john, jane][0] == john && [john, jane][1] == jane;
    var ids := [Num(-1.0), Num(1.0)];
    assert ids[0] !in IdSet([john, jane], "id");
    o := dv.DeleteItems(ids);
    assert o == Fail(InvalidId);
    assert dv.items == [john, jane];
  }

  /**
   * A bulk batch accepts an item without an id, and closing the batch
   * reports it; the batch is closed all the same, so the closing call made
   * after every batch test passes and the items stay as they were set.
   */
  method BulkBatchDefersValidation()
  {
    var dv := new DataView();
    var john, smith := Person(Num(0.0), "John", 20.0), Person(Undefined, "Smith", 30.0);
    PersonId(Undefined, "Smith", 30.0);
    dv.BeginUpdate(true);
    var o := dv.SetItems([john, smith], None);
    assert o.Pass?;
    o := dv.EndUpdate();
    assert o == Fail(NonUniqueId);
    assert !dv.suspended && !dv.bulk;
    o := dv.EndUpdate();
    assert o.Pass? && dv.items == [john, smith];
    assert dv.rows == Visible([john, smith], None);
  }

  function John(): Record { Person(Num(0.0), "John", 20.0) }
  function Jane(): Record { Person(Num(1.0), "Jane", 24.0) }
  function Smith(): Record { Person(Num(3.0), "Smith", 30.0) }
  function Ronald(): Record { Person(Num(4.0), "Ronald", 34.0) }

  lemma FourPeopleValid()
    ensures IdsValid([John(), Smith(), Ronald(), Jane()], "id")
    ensures Num(3.0) in IdSet([John(), Smith(), Ronald(), Jane()], "id")
    ensures Num(1.0) in IdSet([John(), Smith(), Ronald(), Jane()], "id")
  {
    var all := [John(), Smith(), Ronald(), Jane()];
    PersonId(Num(0.0), "John", 20.0);
    PersonId(Num(1.0), "Jane", 24.0);
    PersonId(Num(3.0), "Smith", 30.0);
    PersonId(Num(4.0), "Ronald", 34.0);
    assert all[1] == Smith() && all[3] == Jane();
    IdSetMember(all, "id", Num(3.0));
    IdSetMember(all, "id", Num(1.0));
  }

  lemma RemoveSmithAndJane()
    ensures RemoveIds([John(), Smith(), Ronald(), Jane()], "id", {Num(3.0), Num(1.0)}) == [John(), Ronald()]
  {
    PersonId(Num(0.0), "John", 20.0);
    PersonId(Num(1.0), "Jane", 24.0);
    PersonId(Num(3.0), "Smith", 30.0);
    PersonId(Num(4.0), "Ronald", 34.0);
    var dead := {Num(3.0), Num(1.0)};
    assert [John(), Smith(), Ronald(), Jane()][1..] == [Smith(), Ronald(), Jane()];
    assert [Smith(), Ronald(), Jane()][1..] == [Ronald(), Jane()];
    assert [Ronald(), Jane()][1..] == [Jane()];
    assert RemoveIds([Jane()], "id", dead) == [];
    assert RemoveIds([Ronald(), Jane()], "id", dead) == [Ronald()];
    assert RemoveIds([Smith(), Ronald(), Jane()], "id", dead) == [Ronald()];
  }

  lemma JohnAndJane()
    ensures IdsValid([John(), Jane()], "id")
    ensures [John(), Jane()][..1] + [Smith(), Ronald()] + [John(), Jane()][1..] == [John(), Smith(), Ronald(), Jane()]
  {
    PersonId(Num(0.0), "John", 20.0);
    PersonId(Num(1.0), "Jane", 24.0);
  }

  /** Items inserted at index 1 inside a bulk batch land between the existing ones. */
  method BatchInsertItems()
  {
    var dv := new DataView();
    var o := dv.SetItems([John(), Jane()], None);
    dv.BeginUpdate(true);
    o := dv.InsertItems(1, [Smith(), Ronald()]);
    JohnAndJane();
    assert dv.items == [John(), Smith(), Ronald(), Jane()];
    FourPeopleValid();
    o := dv.EndUpdate();
    assert o.Pass? && !dv.suspended;
  }

  lemma DeadIds(ids: seq<Value>, items: seq<Record>)
    requires ids == [Num(3.0), Num(1.0)]
    requires Num(3.0) in IdSet(items, "id") && Num(1.0) in IdSet(items, "id")
    ensures forall k :: 0 <= k < |ids| ==> ids[k] in IdSet(items, "id")
    ensures (set x | x in ids) == {Num(3.0), Num(1.0)}
  {
  }

  /** Deleting two ids keeps the other items in their order. */
  method DeleteItemsKeepsOrder()
  {
    var dv := new DataView();
    FourPeopleValid();
    var o := dv.SetItems([John(), Smith(), Ronald(), Jane()], None);
    assert o.Pass?;
    var ids := [Num(3.0), Num(1.0)];
    DeadIds(ids, [John(), Smith(), Ronald(), Jane()]);
    o := dv.DeleteItems(ids);
    assert o.Pass?;
    assert dv.items == RemoveIds([John(), Smith(), Ronald(), Jane()], "id", {Num(3.0), Num(1.0)});
    RemoveSmithAndJane();
    assert dv.items == [John(), Ronald()];
  }

  function JohnDoe(): Record
  {
    map["id" := Num(1.0), "firstName" := Str("John"), "lastName" := Str("Doe")]
  }

  function JaneDoe(): Record
  {
    map["id" := Num(2.0), "firstName" := Str("Jane"), "lastName" := Str("Doe")]
  }

  lemma DoeIds()
    ensures IdOf(JohnDoe(), "id") == Some(Num(1.0)) && IdSet([], "id") == {}
    ensures Num(2.0) !in IdSet([JohnDoe()], "id") && IdOf(JaneDoe(), "id") == Some(Num(2.0))
    ensures [] + [JohnDoe()] == [JohnDoe()] && [JohnDoe()] + [JaneDoe()] == [JohnDoe(), JaneDoe()]
    ensures IdsValid([JohnDoe(), JaneDoe()], "id")
  {
    var items := [JohnDoe(), JaneDoe()];
    assert IdOf(items[0], "id") == Some(Num(1.0)) && IdOf(items[1], "id") == Some(Num(2.0));
    IdSetMember([JohnDoe()], "id", Num(2.0));
  }

  lemma DoeFamily(info: GroupingInfo)
    requires info.getter == "lastName" && info.aggregators == [] && !info.collapsed
    ensures var g := MakeGroup(info, Str("Doe"), [JohnDoe(), JaneDoe()]);
      && g.count == 2 && g.totals == None && g.title == info.formatter(Str("Doe"), 2)
      && Visible([JohnDoe(), JaneDoe()], Some(info)) == [GroupRow(g), ItemRow(JohnDoe()), ItemRow(JaneDoe())]
  {
    var items := [JohnDoe(), JaneDoe()];
    assert GroupKey(items[0], "lastName") == Str("Doe") && GroupKey(items[1], "lastName") == Str("Doe");
    SharedKeyGrouping(items, info, Str("Doe"));
  }

  /** Items sharing their group key show as one group row followed by the items. */
  method GroupingWithoutAggregators(formatter: (Value, nat) -> string)
  {
    var dv := new DataView();
    var info := GroupingInfo("lastName", formatter, [], false, false, true);
    var o := dv.SetItems([JohnDoe(), JaneDoe()], None);
    dv.SetGrouping(info);
    DoeIds();
    DoeFamily(info);
    ReadDoeRows(dv, MakeGroup(info, Str("Doe"), [JohnDoe(), JaneDoe()]));
  }

  /** Row 0 is the group, rows 1 and 2 its members, and there is no row 3. */
  method ReadDoeRows(dv: DataView, g: Group)
    requires dv.rows == [GroupRow(g), ItemRow(JohnDoe()), ItemRow(JaneDoe())]
  {
    assert dv.GetItem(0) == Some(GroupRow(g));
    assert dv.GetItem(1) == Some(ItemRow(JohnDoe()));
    assert dv.GetItem(2) == Some(ItemRow(JaneDoe()));
    assert dv.GetItem(3) == None;
  }
}

=== FILE: field_path.dfy ===
/**
 * Reading and writing an item property named by a field string. A field
 * whose first '.' comes after its first character ("address.street") names
 * a path through nested objects; any other field names one property.
 */
module FieldPath {
  import opened Wrappers
  import opened Values
  import NumberText

  /** `s.split('.')`. */
  function Split(s: string): (parts: seq<string>)
    ensures |parts| >= 1
    ensures forall i :: 0 <= i < |parts| ==> '.' !in parts[i]
    decreases |s|
  {
    var d := NumberText.DotIndex(s);
    if d == |s| then
      assert forall i :: 0 <= i < |s| ==> s[i] != '.';
      [s]
    else
      assert forall i :: 0 <= i < d ==> s[..d][i] != '.';
      [s[..d]] + Split(s[d + 1..])
  }

  /** `parts.join('.')`. */
  function Join(parts: seq<string>): string
    requires |parts| >= 1
  {
    if |parts| == 1 then parts[0] else parts[0] + "." + Join(parts[1..])
  }

  /** Splitting on '.' loses nothing: joining the parts gives the field back. */
  lemma {:induction false} JoinSplit(s: string)
    ensures Join(Split(s)) == s
    decreases |s|
  {
    var d := NumberText.DotIndex(s);
    if d < |s| {
      var rest := s[d + 1..];
      JoinSplit(rest);
      assert Split(s) == [s[..d]] + Split(rest);
      Rejoin(s, d);
    }
  }

  lemma Rejoin(s: string, d: nat)
    requires d < |s| && s[d] == '.'
    ensures s[..d] + "." + s[d + 1..] == s
  {
  }

  /** Writes `v` at `path`, replacing a missing or non-object step by a fresh object. */
  function SetPath(fields: Record, path: seq<string>, v: Value): (r: Record)
    requires |path| >= 1
    ensures r.Keys == fields.Keys + {path[0]}
    ensures forall k :: k in fields && k != path[0] ==> r[k] == fields[k]
    decreases |path|
  {
    if |path| == 1 then fields[path[0] := v]
    else
      var child := if path[0] in fields && fields[path[0]].Obj? then fields[path[0]].fields else map[];
      fields[path[0] := Obj(SetPath(child, path[1..], v))]
  }

  /** Reads the value at `path`; a missing step is a miss, not an error. */
  function GetPath(fields: Record, path: seq<string>): Option<Value>
    requires |path| >= 1
    decreases |path|
  {
    if path[0] !in fields then None
    else if |path| == 1 then Some(fields[path[0]])
    else if fields[path[0]].Obj? then GetPath(fields[path[0]].fields, path[1..])
    else None
  }

  /** A value written at a path is read back from that path. */
  lemma {:induction false} GetSetPath(fields: Record, path: seq<string>, v: Value)
    requires |path| >= 1
    ensures GetPath(SetPath(fields, path, v), path) == Some(v)
    decreases |path|
  {
    if |path| > 1 {
      var child := if path[0] in fields && fields[path[0]].Obj? then fields[path[0]].fields else map[];
      GetSetPath(child, path[1..], v);
    }
  }

  /** `field.indexOf('.') > 0`: the field is a path into a complex object. */
  predicate IsComplexField(field: string)
    ensures IsComplexField(field) <==> '.' in field && field[0] != '.'
  {
    0 < NumberText.DotIndex(field) < |field|
  }

  /**
   * Writes `v` to the item property named by `field`: the value reads back
   * from the field, and only the top-level property the field starts with
   * changes.
   */
  function WriteField(fields: Record, field: string, v: Value): (r: Record)
    ensures ReadField(r, field) == Some(v)
    ensures forall k :: k in fields && k != TopProperty(field) ==> k in r && r[k] == fields[k]
  {
    if IsComplexField(field) then
      GetSetPath(fields, Split(field), v);
      SetPath(fields, Split(field), v)
    else fields[field := v]
  }

  /** The top-level property a write to `field` goes through. */
  function TopProperty(field: string): string
  {
    if IsComplexField(field) then Split(field)[0] else field
  }

  /** Reads the item property named by `field`. */
  function ReadField(fields: Record, field: string): Option<Value>
  {
    if IsComplexField(field) then GetPath(fields, Split(field))
    else if field in fields then Some(fields[field])
    else None
  }
}

=== FILE: float_editor.dfy ===
/**
 * The numeric-input logic of the grid's float editor: how many decimal
 * places it allows, the `step` it gives its input, the ordered validation
 * of the typed text, whether the value changed, and writing the validated
 * value back into the edited item.
 */
module FloatEditor {
  import opened Wrappers
  import opened Values
  import opened NumberText
  import FieldPath

  /** `defaultDecimalPlaces`. */
  const DefaultDecimalPlaces: real := 0.0

  /**
   * A validation message. The default messages are named by the constant
   * they come from and carry the values substituted into it.
   */
  datatype Message =
    | Text(text: string)                      // a custom message, or '' when valid
    | RequiredField                           // VALIDATION_REQUIRED_FIELD
    | ValidNumber                             // VALIDATION_EDITOR_VALID_NUMBER
    | NumberBetween(min: real, max: real)     // VALIDATION_EDITOR_NUMBER_BETWEEN
    | NumberMin(min: real)                    // VALIDATION_EDITOR_NUMBER_MIN
    | NumberMax(max: real)                    // VALIDATION_EDITOR_NUMBER_MAX
    | DecimalBetween(minDecimal: nat, maxDecimal: int)  // VALIDATION_EDITOR_DECIMAL_BETWEEN

  /** `{ valid, msg }`. */
  datatype Validation = Validation(valid: bool, msg: Message)

  /** The options of the column's editor that the float editor reads. */
  datatype ColumnEditor = ColumnEditor(
    decimalPlaces: Option<Value>,              // params.decimalPlaces; None when the key is absent
    validator: Option<string -> Validation>,
    required: bool,
    minValue: Option<real>,                    // None when undefined
    maxValue: Option<real>,
    errorMessage: Option<string>,
    alwaysSaveOnEnterKey: bool)

  /** The column definition being edited. */
  datatype Column = Column(
    field: Option<string>,
    validator: Option<string -> Validation>,
    editor: ColumnEditor)

  /** The last key pressed in the input. */
  datatype Key = NoKey | Enter | OtherKey

  // ---------------------------------------------------------------------
  // Decimal places and the input step

  /** `getDecimalPlaces()`: the configured places, the default 0, or null (`None`). */
  function DecimalPlaces(e: ColumnEditor): (r: Option<Value>)
    ensures r.None? <==>
      e.decimalPlaces.Some? && Falsy(e.decimalPlaces.value) &&
      e.decimalPlaces.value != Undefined && e.decimalPlaces.value != Num(0.0)
    ensures r.Some? ==> r.value != Undefined && (!Falsy(r.value) || r.value == Num(0.0))
  {
    var rtn := if e.decimalPlaces.Some? then e.decimalPlaces.value else Undefined;
    var rtn := if rtn == Undefined then Num(DefaultDecimalPlaces) else rtn;
    if Falsy(rtn) && rtn != Num(0.0) then None else Some(rtn)
  }

  /**
   * The setting is returned when present and truthy or 0; an absent or
   * undefined setting gives the default 0; only an explicitly falsy setting
   * other than 0 (null, false, '', NaN) gives null.
   */
  lemma DecimalPlacesCases(e: ColumnEditor)
    ensures e.decimalPlaces.Some? && e.decimalPlaces.value != Undefined &&
            (!Falsy(e.decimalPlaces.value) || e.decimalPlaces.value == Num(0.0))
            ==> DecimalPlaces(e) == e.decimalPlaces
    ensures e.decimalPlaces.None? || e.decimalPlaces == Some(Undefined)
            ==> DecimalPlaces(e) == Some(Num(0.0))
  {
  }

  /** The number of places as a count; a setting that is not a whole number counts as null. */
  function Places(e: ColumnEditor): Option<int>
  {
    match DecimalPlaces(e)
    case Some(Num(r)) => if r.Floor as real == r then Some(r.Floor) else None
    case _ => None
  }

  /** `n` zero characters. */
  function Zeros(n: nat): (z: string)
    ensures |z| == n && forall i :: 0 <= i < n ==> z[i] == '0'
  {
    if n == 0 then "" else Zeros(n - 1) + "0"
  }

  /** The step text for `d` decimal places: "1", or "0." then d-1 zeros then "1". */
  function StepText(d: int): string
  {
    if d <= 0 then "1" else "0." + Zeros(d - 1) + "1"
  }

  /** `getInputDecimalSteps()`; a null count compares like 0. */
  method InputDecimalSteps(places: Option<int>) returns (step: string)
    ensures step == StepText(if places.Some? then places.value else 0)
  {
    var decimals := if places.Some? then places.value else 0;
    var zeroString := "";
    var i := 1;
    while i < decimals
      invariant 1 <= i && (decimals >= 1 ==> i <= decimals)
      invariant zeroString == Zeros(i - 1)
    {
      zeroString := zeroString + "0";
      i := i + 1;
    }
    if decimals > 0 {
      step := "0." + zeroString + "1";
    } else {
      step := "1";
    }
  }

  /**
   * For d >= 1 the step has exactly d digits after the point and is one
   * unit in the last place, 10^-d; with no places it is the whole number 1.
   */
  lemma StepTextMeaning(d: int)
    ensures d <= 0 ==> ParseFloat(StepText(d)) == Some(1.0) && WholeNumberPattern(StepText(d))
    ensures d >= 1 ==> FractionDigits(StepText(d)) == d
    ensures d >= 1 ==> DecimalPattern(StepText(d), d) && !DecimalPattern(StepText(d), d - 1)
    ensures d >= 1 ==> ParseFloat(StepText(d)) == Some(NegPow10(d))
    ensures d >= 1 ==> ParseFloat(StepText(d)).Some? && ParseFloat(StepText(d)).value * Pow10(d) as real == 1.0
  {
    if d <= 0 {
      WholeStep(d);
    } else {
      FractionStepShape(d);
      FractionStep(d);
      NegPow10Inverse(d);
    }
  }

  lemma WholeStep(d: int)
    requires d <= 0
    ensures ParseFloat(StepText(d)) == Some(1.0) && WholeNumberPattern(StepText(d))
  {
    var s := StepText(d);
    ScanIsShape(s);
    assert s == "1";
    assert Unsigned(s) == s;
    assert DotIndex(s) == 1;
    assert s[..1] == s;
    assert DigitsValue(s) == 10 * DigitsValue([]) + 1;
    assert Shape(s) == Whole(1);
  }

  lemma FractionStepShape(d: int)
    requires d >= 1
    ensures Unsigned(StepText(d)) == StepText(d) && DotIndex(StepText(d)) == 1
    ensures Shape(StepText(d)) == Fraction(1, d)
  {
    var s := StepText(d);
    var tail := Zeros(d - 1) + "1";
    assert s == "0." + tail;
    assert Unsigned(s) == s;
    assert DotIndex(s) == 1;
    assert s[..1] == "0";
    assert s[2..] == tail;
    AllDigitsAppend(Zeros(d - 1), '1');
  }

  lemma FractionStep(d: int)
    requires d >= 1
    requires Unsigned(StepText(d)) == StepText(d) && DotIndex(StepText(d)) == 1
    requires Shape(StepText(d)) == Fraction(1, d)
    ensures FractionDigits(StepText(d)) == d
    ensures DecimalPattern(StepText(d), d) && !DecimalPattern(StepText(d), d - 1)
    ensures ParseFloat(StepText(d)) == Some(NegPow10(d))
  {
    ScanIsShape(StepText(d));
    FractionStepValue(d);
  }

  lemma FractionStepValue(d: int)
    requires d >= 1
    requires Unsigned(StepText(d)) == StepText(d) && DotIndex(StepText(d)) == 1
    requires Scan(StepText(d)) == Fraction(1, d)
    ensures ParseFloat(StepText(d)) == Some(NegPow10(d))
  {
    var s := StepText(d);
    var tail := Zeros(d - 1) + "1";
    assert IsNumeric(s);
    assert s == "0." + tail;
    assert s[0] == '0' && s[..1] == "0" && s[1 + 1..] == tail;
    assert DigitsValue("0") == 0 by {
      assert DigitsValue("0") == 10 * DigitsValue([]) + 0;
    }
    TailValue(d - 1);
  }

  /** A one after k zeros, read after a point, is 10^-(k+1). */
  lemma {:induction false} TailValue(k: nat)
    ensures FractionValue(Zeros(k) + "1") == NegPow10(k + 1)
  {
    var tail := Zeros(k) + "1";
    if k == 0 {
      assert tail == "1";
      assert FractionValue(tail) == (1.0 + FractionValue([])) / 10.0;
    } else {
      assert tail[0] == '0';
      assert tail[1..] == Zeros(k - 1) + "1";
      TailValue(k - 1);
    }
  }

  // ---------------------------------------------------------------------
  // Validation

  /** The custom validator: the editor's own first, then the column's. */
  function CustomValidator(col: Column): Option<string -> Validation>
  {
    if col.editor.validator.Some? then col.editor.validator else col.validator
  }

  /** A failed check: a non-empty custom `errorMessage` replaces the default message. */
  function Failure(e: ColumnEditor, default: Message): Validation
  {
    Validation(false, if e.errorMessage.Some? && e.errorMessage.value != "" then Text(e.errorMessage.value) else default)
  }

  /** The checks before the bounds, and the decimal count, all pass. */
  predicate ShapeAccepted(col: Column, s: string)
  {
    var places := Places(col.editor);
    && !(col.editor.required && s == "")
    && IsNumeric(s)
    && (places == Some(0) ==> WholeNumberPattern(s))
    && (places.Some? && places.value > 0 ==> DecimalPattern(s, places.value))
  }

  /** The number-shape check passes: a number, and a whole-number text when no places are allowed. */
  predicate NumberShape(col: Column, s: string)
  {
    IsNumeric(s) && (Places(col.editor) == Some(0) ==> WholeNumberPattern(s))
  }

  /**
   * The ordered checks of `validate`, given the outcome of the bound checks:
   * custom validator, required, number shape, bounds, decimal count. The
   * first check that fails decides the message, whatever the later ones say.
   */
  function Ladder(col: Column, s: string, boundFailure: Option<Message>): (r: Validation)
    ensures CustomValidator(col).Some? ==> r == CustomValidator(col).value(s)
    ensures CustomValidator(col).None? ==> (r.valid <==> ShapeAccepted(col, s) && boundFailure.None?)
    ensures CustomValidator(col).None? && r.valid ==> r.msg == Text("")
    ensures CustomValidator(col).None? && col.editor.required && s == "" ==> r == Failure(col.editor, RequiredField)
    ensures CustomValidator(col).None? && !(col.editor.required && s == "") && !NumberShape(col, s)
      ==> r == Failure(col.editor, ValidNumber)
    ensures CustomValidator(col).None? && !(col.editor.required && s == "") && NumberShape(col, s) && boundFailure.Some?
      ==> r == Failure(col.editor, boundFailure.value)
    ensures CustomValidator(col).None? && !r.valid && !(col.editor.errorMessage.Some? && col.editor.errorMessage.value != "")
      && (boundFailure.Some? ==> !boundFailure.value.DecimalBetween?)
      ==> (r.msg.DecimalBetween? <==> !(col.editor.required && s == "") && NumberShape(col, s) && boundFailure.None?)
  {
    var e := col.editor;
    var places := Places(e);
    match CustomValidator(col)
    case Some(validator) => validator(s)
    case None =>
      if e.required && s == "" then Failure(e, RequiredField)
      else if !IsNumeric(s) || (places == Some(0) && !WholeNumberPattern(s)) then Failure(e, ValidNumber)
      else if boundFailure.Some? then Failure(e, boundFailure.value)
      else if places.Some? && places.value > 0 && !DecimalPattern(s, places.value) then
        Failure(e, DecimalBetween(0, places.value))
      else Validation(true, Text(""))
  }

  /**
   * The bound checks as the editor writes them: the between check, then the
   * min check, then the max check, each run whatever the other bound is.
   * A NaN or null number fails no comparison.
   */
  function BoundsAsWritten(min: Option<real>, max: Option<real>, n: Option<real>): (r: Option<Message>)
    ensures n.None? ==> r.None?
    ensures n.Some? ==>
      (r.None? <==> (min.Some? ==> min.value < n.value) && (max.Some? ==> n.value < max.value))
  {
    if min.Some? && max.Some? && n.Some? && (n.value < min.value || n.value > max.value) then
      Some(NumberBetween(min.value, max.value))
    else if min.Some? && n.Some? && n.value <= min.value then Some(NumberMin(min.value))
    else if max.Some? && n.Some? && n.value >= max.value then Some(NumberMax(max.value))
    else None
  }

  /** The bound checks as their comments describe them: the min and max checks apply to a single bound only. */
  function Bounds(min: Option<real>, max: Option<real>, n: Option<real>): (r: Option<Message>)
    ensures n.None? ==> r.None?
    ensures n.Some? && min.Some? && max.Some? ==> (r.None? <==> min.value <= n.value <= max.value)
    ensures n.Some? && !(min.Some? && max.Some?) ==>
      (r.None? <==> (min.Some? ==> min.value < n.value) && (max.Some? ==> n.value < max.value))
  {
    if min.Some? && max.Some? && n.Some? && (n.value < min.value || n.value > max.value) then
      Some(NumberBetween(min.value, max.value))
    else if min.Some? && max.None? && n.Some? && n.value <= min.value then Some(NumberMin(min.value))
    else if max.Some? && min.None? && n.Some? && n.value >= max.value then Some(NumberMax(max.value))
    else None
  }

  /**
   * `validate(s)` exactly as written: without a custom validator, a text
   * passes when its shape does and its number lies strictly inside every
   * bound that is set.
   */
  function ValidateAsWritten(col: Column, s: string): (r: Validation)
    ensures CustomValidator(col).None? && ParseFloat(s).None? ==> (r.valid <==> ShapeAccepted(col, s))
    ensures CustomValidator(col).None? && ParseFloat(s).Some? ==>
      var v, e := ParseFloat(s).value, col.editor;
      r.valid <==> (ShapeAccepted(col, s) &&
        (e.minValue.Some? ==> e.minValue.value < v) && (e.maxValue.Some? ==> v < e.maxValue.value))
  {
    Ladder(col, s, BoundsAsWritten(col.editor.minValue, col.editor.maxValue, ParseFloat(s)))
  }

  /**
   * `validate(s)` with the single-bound checks restricted to a single
   * bound: a range of two bounds includes its ends.
   */
  function Validate(col: Column, s: string): (r: Validation)
    ensures CustomValidator(col).None? && ParseFloat(s).None? ==> (r.valid <==> ShapeAccepted(col, s))
    ensures CustomValidator(col).None? && ParseFloat(s).Some? ==>
      var v, e := ParseFloat(s).value, col.editor;
      r.valid <==> (ShapeAccepted(col, s) &&
        if e.minValue.Some? && e.maxValue.Some? then e.minValue.value <= v <= e.maxValue.value
        else (e.minValue.Some? ==> e.minValue.value < v) && (e.maxValue.Some? ==> v < e.maxValue.value))
  {
    Ladder(col, s, Bounds(col.editor.minValue, col.editor.maxValue, ParseFloat(s)))
  }

  /**
   * As written, a bound failure is reported before a decimal-count
   * failure: a number at or below a lone minimum, or outside a range of two
   * bounds, gets the bound's message whatever its number of decimals.
   */
  lemma AsWrittenBoundBeforeDecimals(col: Column, s: string, v: real)
    requires CustomValidator(col).None? && !(col.editor.required && s == "") && NumberShape(col, s)
    requires ParseFloat(s) == Some(v)
    ensures var e := col.editor;
      e.minValue.Some? && e.maxValue.Some? && (v < e.minValue.value || v > e.maxValue.value) ==>
        ValidateAsWritten(col, s) == Failure(e, NumberBetween(e.minValue.value, e.maxValue.value))
    ensures var e := col.editor;
      e.minValue.Some? && e.maxValue.None? && v <= e.minValue.value ==>
        ValidateAsWritten(col, s) == Failure(e, NumberMin(e.minValue.value))
    ensures var e := col.editor;
      e.maxValue.Some? && e.minValue.None? && v >= e.maxValue.value ==>
        ValidateAsWritten(col, s) == Failure(e, NumberMax(e.maxValue.value))
  {
  }

  /** A custom validator decides alone; the editor's validator takes precedence over the column's. */
  lemma CustomValidatorDecides(col: Column, s: string)
    requires CustomValidator(col).Some?
    ensures Validate(col, s) == CustomValidator(col).value(s)
    ensures col.editor.validator.Some? ==> Validate(col, s) == col.editor.validator.value(s)
    ensures col.editor.validator.None? ==> Validate(col, s) == col.validator.value(s)
  {
  }

  /**
   * Without a custom validator: a valid result has the empty message; an
   * invalid one carries the custom error message when there is one, and a
   * default message otherwise.
   */
  lemma ValidationMessages(col: Column, s: string)
    requires CustomValidator(col).None?
    ensures Validate(col, s).valid ==> Validate(col, s).msg == Text("")
    ensures !Validate(col, s).valid && col.editor.errorMessage.Some? && col.editor.errorMessage.value != ""
            ==> Validate(col, s).msg == Text(col.editor.errorMessage.value)
    ensures !Validate(col, s).valid && (col.editor.errorMessage.None? || col.editor.errorMessage == Some(""))
            ==> !Validate(col, s).msg.Text?
  {
  }

  /** A required field left empty fails first, with the required-field message. */
  lemma RequiredEmptyFails(col: Column)
    requires CustomValidator(col).None? && col.editor.required
    ensures Validate(col, "") == Failure(col.editor, RequiredField)
  {
  }

  /**
   * With 0 places only a sign, at least one digit, then optionally a point
   * and digits pass; so the empty text fails even when not required.
   */
  lemma ZeroPlacesShape(col: Column, s: string)
    requires CustomValidator(col).None? && Places(col.editor) == Some(0)
    ensures Validate(col, s).valid ==>
      s != "" && IsNumeric(s) && |Unsigned(s)| > 0 && IsDigit(Unsigned(s)[0])
    ensures !Validate(col, "").valid
  {
    WholeNumberPatternShape(s);
    WholeNumberPatternShape("");
  }

  /** With N > 0 places a valid text has at most N digits after the point, and the empty text passes unless required. */
  lemma PlacesBoundFractionDigits(col: Column, s: string)
    requires CustomValidator(col).None?
    requires Places(col.editor).Some? && Places(col.editor).value > 0
    ensures Validate(col, s).valid && s != "" ==> FractionDigits(s) <= Places(col.editor).value
    ensures Validate(col, "").valid <==> !col.editor.required
  {
    if Validate(col, s).valid && s != "" {
      DecimalPatternOnNumbers(s, Places(col.editor).value);
    }
    assert Scan("") == Start;
  }

  /**
   * A valid number lies within the bounds: both ends included when both
   * are set, the single bound excluded otherwise.
   */
  lemma ValidWithinBounds(col: Column, s: string, v: real)
    requires CustomValidator(col).None? && ParseFloat(s) == Some(v) && Validate(col, s).valid
    ensures col.editor.minValue.Some? && col.editor.maxValue.Some? ==>
      col.editor.minValue.value <= v <= col.editor.maxValue.value
    ensures col.editor.minValue.Some? && col.editor.maxValue.None? ==> col.editor.minValue.value < v
    ensures col.editor.minValue.None? && col.editor.maxValue.Some? ==> v < col.editor.maxValue.value
  {
  }

  /** With both bounds, a well-shaped number is valid exactly when it lies between them, ends included. */
  lemma BothBoundsInclusive(col: Column, s: string, v: real)
    requires CustomValidator(col).None? && ShapeAccepted(col, s) && ParseFloat(s) == Some(v)
    requires col.editor.minValue.Some? && col.editor.maxValue.Some?
    ensures Validate(col, s).valid <==> col.editor.minValue.value <= v <= col.editor.maxValue.value
  {
  }

  /** With only a minimum, a well-shaped number is valid exactly when it is above it. */
  lemma MinOnlyExclusive(col: Column, s: string, v: real)
    requires CustomValidator(col).None? && ShapeAccepted(col, s) && ParseFloat(s) == Some(v)
    requires col.editor.minValue.Some? && col.editor.maxValue.None?
    ensures Validate(col, s).valid <==> col.editor.minValue.value < v
  {
  }

  /** With only a maximum, a well-shaped number is valid exactly when it is below it. */
  lemma MaxOnlyExclusive(col: Column, s: string, v: real)
    requires CustomValidator(col).None? && ShapeAccepted(col, s) && ParseFloat(s) == Some(v)
    requires col.editor.minValue.None? && col.editor.maxValue.Some?
    ensures Validate(col, s).valid <==> v < col.editor.maxValue.value
  {
  }

  /**
   * As written, both ends of a two-sided range are rejected: the between
   * check lets them through and the single-bound checks then refuse them.
   */
  lemma AsWrittenRejectsRangeEnds(col: Column, s: string, v: real)
    requires CustomValidator(col).None? && ShapeAccepted(col, s) && ParseFloat(s) == Some(v)
    requires col.editor.minValue.Some? && col.editor.maxValue.Some?
    requires v == col.editor.minValue.value || v == col.editor.maxValue.value
    ensures !ValidateAsWritten(col, s).valid
    ensures Validate(col, s).valid <==> col.editor.minValue.value <= col.editor.maxValue.value
  {
  }

  /**
   * The corrected checks accept everything the written ones accept, and
   * differ only on a number at an end of a range of two bounds.
   */
  lemma AsWrittenIsStricter(col: Column, s: string)
    ensures ValidateAsWritten(col, s).valid ==> Validate(col, s) == ValidateAsWritten(col, s)
    ensures Validate(col, s) != ValidateAsWritten(col, s) ==>
      && col.editor.minValue.Some? && col.editor.maxValue.Some? && ParseFloat(s).Some?
      && (ParseFloat(s).value == col.editor.minValue.value || ParseFloat(s).value == col.editor.maxValue.value)
  {
  }

  /** The input "0" in a column with range 0 to 10 is refused as written, and accepted once corrected. */
  lemma AsWrittenRangeCounterexample()
    ensures
      var e := ColumnEditor(None, None, false, Some(0.0), Some(10.0), None, false);
      var col := Column(Some("price"), None, e);
      ValidateAsWritten(col, "0") == Validation(false, NumberMin(0.0)) &&
      Validate(col, "0") == Validation(true, Text(""))
  {
    var e := ColumnEditor(None, None, false, Some(0.0), Some(10.0), None, false);
    var col := Column(Some("price"), None, e);
    assert Places(e) == Some(0);
    assert Scan("0") == Whole(1) by { assert "0"[..0] == []; }
    assert Unsigned("0") == "0";
    assert DotIndex("0") == 1;
    assert "0"[..1] == "0";
    assert DigitsValue("0") == 10 * DigitsValue([]) + 0;
    assert ParseFloat("0") == Some(0.0);
  }

  // ---------------------------------------------------------------------
  // Change detection

  /**
   * `isValueChanged()`: always true after ENTER when the editor saves on
   * ENTER; otherwise false for an empty input over a null original, and
   * otherwise a strict comparison of the text with the original value.
   */
  function ValueChanged(input: string, original: Value, alwaysSaveOnEnterKey: bool, lastKey: Key): (changed: bool)
    ensures alwaysSaveOnEnterKey && lastKey == Enter ==> changed
    ensures !changed ==> original == Str(input) || (input == "" && original == Null)
    ensures original.Num? || original == Undefined ==> changed
    ensures !(alwaysSaveOnEnterKey && lastKey == Enter) && (original == Str(input) || (input == "" && original == Null))
      ==> !changed
  {
    if alwaysSaveOnEnterKey && lastKey == Enter then true
    else !(input == "" && original == Null) && original != Str(input)
  }

  // ---------------------------------------------------------------------
  // The editor object

  /** The text reads as a number equal to one end of a range with both bounds set. */
  predicate AtRangeEnd(col: Column, seen: string)
  {
    && col.editor.minValue.Some? && col.editor.maxValue.Some? && ParseFloat(seen).Some?
    && (ParseFloat(seen).value == col.editor.minValue.value || ParseFloat(seen).value == col.editor.maxValue.value)
  }

  /**
   * The text `validate(state)` checks: the input's text when the state is
   * undefined, the state itself when it is a string, and otherwise its
   * conversion to text, `text(state)`, which the number test and the
   * patterns apply to.
   */
  function StateText(state: Value, input: string, text: Value -> string): (seen: string)
    ensures state == Undefined ==> seen == input
    ensures state.Str? ==> seen == state.s
    ensures state != Undefined && !state.Str? ==> seen == text(state)
  {
    if state == Undefined then input else Display(state, text)
  }

  /**
   * The value `applyValue` stores: the state itself, string or number, when
   * its text `seen` validates, and '' otherwise. It stores whatever the
   * written checks would store, and differs from them only at the ends of a
   * range of two bounds.
   */
  function SavedValue(col: Column, state: Value, seen: string): (r: Value)
    ensures r == state || r == Str("")
    ensures ValidateAsWritten(col, seen).valid ==> r == state
    ensures !(col.editor.minValue.Some? && col.editor.maxValue.Some?) && !ValidateAsWritten(col, seen).valid
      ==> r == Str("")
    ensures !ValidateAsWritten(col, seen).valid && !AtRangeEnd(col, seen) ==> r == Str("")
    ensures !Validate(col, seen).valid ==> r == Str("")
  {
    AsWrittenIsStricter(col, seen);
    if Validate(col, seen).valid then state else Str("")
  }

  /** The template conversion `${v}` of the original value, given that of the values that are not strings. */
  function Display(v: Value, text: Value -> string): string
  {
    if v.Str? then v.s else text(v)
  }

  /**
   * The value `loadValue` reads from the item: the path's value, or
   * `undefined`, for a field with a '.' after its first character; the
   * property's value when the item has the property; nothing otherwise.
   */
  function LoadedValue(col: Column, item: Record): Option<Value>
  {
    if col.field.None? then None
    else
      var field := col.field.value;
      if FieldPath.IsComplexField(field) then
        match FieldPath.ReadField(item, field)
        case Some(v) => Some(v)
        case None => Some(Undefined)
      else if field in item then Some(item[field])
      else None
  }

  class Editor {
    const column: Column
    var input: string          // the input element's value
    var originalValue: Value
    var lastKey: Key           // the key of the last keydown event

    constructor (column: Column)
      ensures this.column == column && input == "" && originalValue == Undefined && lastKey == NoKey
    {
      this.column := column;
      input := "";
      originalValue := Undefined;
      lastKey := NoKey;
    }

    /** The keydown listener records the event. */
    method KeyDown(k: Key)
      modifies this`lastKey
      ensures lastKey == k
    {
      lastKey := k;
    }

    /** `setValue(value)`. */
    method SetValue(s: string)
      modifies this`input
      ensures input == s
    {
      input := s;
    }

    /**
     * `loadValue(item)`: remembers the item's value as the original, fixed
     * to the configured places when a number can be made of it, and shows
     * it in the input. `toFixed(v, places)` stands for `(+v).toFixed(places)`
     * and `text` for the conversion of a non-string value to text.
     */
    method LoadValue(item: Record, toFixed: (Value, Value) -> string, text: Value -> string)
      modifies this`originalValue, this`input
      ensures LoadedValue(column, item).None? ==> originalValue == old(originalValue) && input == old(input)
      ensures LoadedValue(column, item).Some? ==>
        var v, places := LoadedValue(column, item).value, DecimalPlaces(column.editor);
        && originalValue == (if places.Some? && (!Falsy(v) || v == Num(0.0)) then Str(toFixed(v, places.value)) else v)
        && input == Display(originalValue, text)
      ensures LoadedValue(column, item).Some? && originalValue.Str? && !(column.editor.alwaysSaveOnEnterKey && lastKey == Enter)
        ==> !IsValueChanged()
    {
      var loaded := LoadedValue(column, item);
      if loaded.Some? {
        originalValue := loaded.value;
        var places := DecimalPlaces(column.editor);
        if places.Some? && (!Falsy(originalValue) || originalValue == Num(0.0)) {
          originalValue := Str(toFixed(originalValue, places.value));
        }
        input := Display(originalValue, text);
      }
    }

    /** `isValueChanged()` over the editor's current input, original value and last key. */
    predicate IsValueChanged()
      reads this
      ensures column.editor.alwaysSaveOnEnterKey && lastKey == Enter ==> IsValueChanged()
      ensures !IsValueChanged() ==> originalValue == Str(input) || (input == "" && originalValue == Null)
      ensures (!(column.editor.alwaysSaveOnEnterKey && lastKey == Enter)
        && (originalValue == Str(input) || (input == "" && originalValue == Null))) ==> !IsValueChanged()
    {
      ValueChanged(input, originalValue, column.editor.alwaysSaveOnEnterKey, lastKey)
    }

    /**
     * `applyValue(item, state)`: writes the state, or '' when it does not
     * validate, to the column's field of the item; a field with a '.' after
     * its first character is written as a path. The state is any value, a
     * number as `serializeValue` gives it; `text` converts a value that is
     * not a string to the text the checks read.
     */
    method ApplyValue(item: DataItem, state: Value, text: Value -> string)
      modifies item
      ensures column.field.None? ==> item.fields == old(item.fields)
      ensures column.field.Some? ==>
        item.fields == FieldPath.WriteField(old(item.fields), column.field.value,
          SavedValue(column, state, StateText(state, input, text)))
      ensures column.field.Some? ==>
        FieldPath.ReadField(item.fields, column.field.value) == Some(SavedValue(column, state, StateText(state, input, text)))
      ensures column.field.Some? ==> forall k :: k in old(item.fields) && k != FieldPath.TopProperty(column.field.value) ==>
        k in item.fields && item.fields[k] == old(item.fields)[k]
    {
      if column.field.Some? {
        var fieldName := column.field.value;
        var validated := StateText(state, input, text);
        var newValue := SavedValue(column, state, validated);
        if FieldPath.IsComplexField(fieldName) {
          item.fields := FieldPath.SetPath(item.fields, FieldPath.Split(fieldName), newValue);
        } else {
          item.fields := item.fields[fieldName := newValue];
        }
      }
    }
  }
}

=== FILE: grouping.dfy ===
/**
 * Single-level grouping of the data view's items: items are bucketed by the
 * value of one property, in the order the values first appear, and the view
 * flattens each bucket to a group row, its member rows and, when the level
 * has aggregators, a totals row.
 */
module Grouping {
  import opened Wrappers
  import opened Values

  /** A built-in aggregator; only the sum is modelled. */
  datatype Aggregator = Sum(field: string)

  /** A grouping definition: the property grouped on, the title formatter and the aggregators. */
  datatype GroupingInfo = GroupingInfo(
    getter: string,
    formatter: (Value, nat) -> string,
    aggregators: seq<Aggregator>,
    aggregateCollapsed: bool,
    collapsed: bool,
    displayTotalsRow: bool)

  /** A totals row's payload: `sum: { field: total }` for each summed field. */
  datatype Totals = Totals(sum: map<string, real>)

  /** A group row: its key value, member count, level, members, title, collapsed flag and totals. */
  datatype Group = Group(
    value: Value,
    count: nat,
    level: nat,
    rows: seq<Record>,
    title: string,
    collapsed: bool,
    totals: Option<Totals>)

  /** A row of the visible sequence. */
  datatype Row = ItemRow(item: Record) | GroupRow(group: Group) | TotalsRow(totals: Totals)

  /** The value an item is grouped on. */
  function GroupKey(item: Record, getter: string): Value
  {
    Get(item, getter)
  }

  /** The position of the first item whose key is `k`, or the length when there is none. */
  function FirstWithKey(items: seq<Record>, getter: string, k: Value): (i: nat)
    ensures i <= |items|
    ensures i < |items| ==> GroupKey(items[i], getter) == k
    ensures forall q :: 0 <= q < i && q < |items| ==> GroupKey(items[q], getter) != k
  {
    if items == [] then 0
    else
      var front := items[..|items| - 1];
      var f := FirstWithKey(front, getter, k);
      assert forall q :: 0 <= q < |front| ==> items[q] == front[q];
      if f < |front| then f
      else if GroupKey(items[|items| - 1], getter) == k then |front|
      else |items|
  }

  /** The distinct group keys of the items, in the order they first appear. */
  function GroupKeys(items: seq<Record>, getter: string): (ks: seq<Value>)
    ensures forall i, j :: 0 <= i < j < |ks| ==> ks[i] != ks[j]
    ensures forall i :: 0 <= i < |items| ==> GroupKey(items[i], getter) in ks
    ensures forall k :: k in ks ==> exists i :: 0 <= i < |items| && GroupKey(items[i], getter) == k
  {
    if items == [] then []
    else
      var front := items[..|items| - 1];
      var ks := GroupKeys(front, getter);
      var k := GroupKey(items[|items| - 1], getter);
      assert forall i :: 0 <= i < |front| ==> items[i] == front[i];
      if k in ks then ks else ks + [k]
  }

  /**
   * The keys come in the order of their first appearance: each key first
   * appears at some item, and an earlier key first appears earlier.
   */
  lemma {:induction false} GroupKeysFirstAppearance(items: seq<Record>, getter: string)
    ensures forall k :: k in GroupKeys(items, getter) ==> FirstWithKey(items, getter, k) < |items|
    ensures forall i, j :: 0 <= i < j < |GroupKeys(items, getter)| ==>
      FirstWithKey(items, getter, GroupKeys(items, getter)[i]) < FirstWithKey(items, getter, GroupKeys(items, getter)[j])
  {
    if items != [] {
      var front := items[..|items| - 1];
      var ks0, k := GroupKeys(front, getter), GroupKey(items[|items| - 1], getter);
      GroupKeysFirstAppearance(front, getter);
      forall y | y in ks0
        ensures FirstWithKey(items, getter, y) == FirstWithKey(front, getter, y)
      {
        FirstWithKeyKept(items, getter, y);
      }
      if k !in ks0 {
        FirstWithKeyNew(items, getter);
        assert GroupKeys(items, getter) == ks0 + [k];
      }
    }
  }

  /** A key that first appears before the last item first appears there in the whole sequence too. */
  lemma FirstWithKeyKept(items: seq<Record>, getter: string, k: Value)
    requires items != [] && FirstWithKey(items[..|items| - 1], getter, k) < |items| - 1
    ensures FirstWithKey(items, getter, k) == FirstWithKey(items[..|items| - 1], getter, k)
  {
  }

  /** The last item's key, new to the items before it, first appears at the last item. */
  lemma FirstWithKeyNew(items: seq<Record>, getter: string)
    requires items != []
    requires GroupKey(items[|items| - 1], getter) !in GroupKeys(items[..|items| - 1], getter)
    ensures FirstWithKey(items, getter, GroupKey(items[|items| - 1], getter)) == |items| - 1
  {
    var front := items[..|items| - 1];
    var f := FirstWithKey(front, getter, GroupKey(items[|items| - 1], getter));
    if f < |front| {
      assert false;
    }
  }

  /** The items whose key is `k`, in their order. */
  function Members(items: seq<Record>, getter: string, k: Value): (ms: seq<Record>)
  {
    if items == [] then []
    else
      var last := items[|items| - 1];
      Members(items[..|items| - 1], getter, k) + (if GroupKey(last, getter) == k then [last] else [])
  }

  lemma {:induction false} MembersHaveKey(items: seq<Record>, getter: string, k: Value)
    ensures forall m :: m in Members(items, getter, k) ==> m in items && GroupKey(m, getter) == k
  {
    if items != [] {
      MembersHaveKey(items[..|items| - 1], getter, k);
    }
  }

  /** The sum of the numeric values of `field` over the items; other values add nothing. */
  function SumOf(items: seq<Record>, field: string): real
  {
    if items == [] then 0.0
    else
      var v := Get(items[|items| - 1], field);
      SumOf(items[..|items| - 1], field) + (if v.Num? then v.r else 0.0)
  }

  /** Runs every aggregator over the members. */
  function Accumulate(aggregators: seq<Aggregator>, members: seq<Record>): Totals
  {
    Totals(map f | f in (set a | a in aggregators :: a.field) :: SumOf(members, f))
  }

  /** The group of key `k`; totals exist exactly when the level has aggregators. */
  function MakeGroup(info: GroupingInfo, k: Value, members: seq<Record>): Group
  {
    Group(k, |members|, 0, members, info.formatter(k, |members|), info.collapsed,
          if |info.aggregators| > 0 then Some(Accumulate(info.aggregators, members)) else None)
  }

  /** The groups for the keys `ks`, in that order. */
  function GroupsFor(items: seq<Record>, info: GroupingInfo, ks: seq<Value>): seq<Group>
  {
    seq(|ks|, i requires 0 <= i < |ks| => MakeGroup(info, ks[i], Members(items, info.getter, ks[i])))
  }

  function GroupsOf(items: seq<Record>, info: GroupingInfo): seq<Group>
  {
    GroupsFor(items, info, GroupKeys(items, info.getter))
  }

  function ItemRows(xs: seq<Record>): (rows: seq<Row>)
  {
    seq(|xs|, i requires 0 <= i < |xs| => ItemRow(xs[i]))
  }

  /** A group's rows: the group row, its members unless collapsed, then its totals when shown. */
  function GroupRows(g: Group, info: GroupingInfo): seq<Row>
  {
    [GroupRow(g)]
    + (if !g.collapsed then ItemRows(g.rows) else [])
    + (if g.totals.Some? && info.displayTotalsRow && (!g.collapsed || info.aggregateCollapsed)
       then [TotalsRow(g.totals.value)] else [])
  }

  /** The groups' rows one after the other: the group rows are exactly the groups. */
  function Flatten(groups: seq<Group>, info: GroupingInfo): seq<Row>
  {
    if groups == [] then [] else Flatten(groups[..|groups| - 1], info) + GroupRows(groups[|groups| - 1], info)
  }

  /** The visible sequence: the items themselves, or the flattened groups. */
  function Visible(items: seq<Record>, grouping: Option<GroupingInfo>): seq<Row>
  {
    match grouping
    case None => ItemRows(items)
    case Some(info) => Flatten(GroupsOf(items, info), info)
  }

  /** The item rows of a row sequence, in order. */
  function ItemsOf(rows: seq<Row>): seq<Record>
  {
    if rows == [] then []
    else ItemsOf(rows[..|rows| - 1]) + (if rows[|rows| - 1].ItemRow? then [rows[|rows| - 1].item] else [])
  }

  lemma {:induction false} ItemsOfAppend(a: seq<Row>, b: seq<Row>)
    ensures ItemsOf(a + b) == ItemsOf(a) + ItemsOf(b)
    decreases |b|
  {
    if b != [] {
      assert (a + b)[..|a + b| - 1] == a + b[..|b| - 1];
      assert (a + b)[|a + b| - 1] == b[|b| - 1];
      ItemsOfAppend(a, b[..|b| - 1]);
    } else {
      assert a + b == a;
    }
  }

  /** The groups of a row sequence's group rows, in order. */
  function GroupsIn(rows: seq<Row>): seq<Group>
  {
    if rows == [] then []
    else GroupsIn(rows[..|rows| - 1]) + (if rows[|rows| - 1].GroupRow? then [rows[|rows| - 1].group] else [])
  }

  lemma {:induction false} GroupsInAppend(a: seq<Row>, b: seq<Row>)
    ensures GroupsIn(a + b) == GroupsIn(a) + GroupsIn(b)
    decreases |b|
  {
    if b != [] {
      assert (a + b)[..|a + b| - 1] == a + b[..|b| - 1];
      assert (a + b)[|a + b| - 1] == b[|b| - 1];
      GroupsInAppend(a, b[..|b| - 1]);
    } else {
      assert a + b == a;
    }
  }

  lemma {:induction false} GroupsInItemRows(xs: seq<Record>)
    ensures GroupsIn(ItemRows(xs)) == []
  {
    if xs != [] {
      var front := xs[..|xs| - 1];
      assert ItemRows(xs)[..|xs| - 1] == ItemRows(front);
      GroupsInItemRows(front);
    }
  }

  /** A group's rows open with its group row and end with a totals row exactly when its totals are shown. */
  lemma GroupRowsShape(g: Group, info: GroupingInfo)
    ensures var rs := GroupRows(g, info);
      && |rs| > 0 && rs[0] == GroupRow(g)
      && (rs[|rs| - 1].TotalsRow? <==>
          g.totals.Some? && info.displayTotalsRow && (!g.collapsed || info.aggregateCollapsed))
  {
  }

  /** The only group row among a group's rows is its own. */
  lemma GroupRowsGroups(g: Group, info: GroupingInfo)
    ensures GroupsIn(GroupRows(g, info)) == [g]
  {
    var members := if !g.collapsed then ItemRows(g.rows) else [];
    var tail := if g.totals.Some? && info.displayTotalsRow && (!g.collapsed || info.aggregateCollapsed)
                then [TotalsRow(g.totals.value)] else [];
    assert GroupRows(g, info) == [GroupRow(g)] + members + tail;
    GroupsInAppend([GroupRow(g)] + members, tail);
    GroupsInAppend([GroupRow(g)], members);
    GroupsInItemRows(g.rows);
    assert GroupsIn([GroupRow(g)]) == [g] by { assert [GroupRow(g)][..0] == []; }
    assert GroupsIn(tail) == [] by {
      if tail != [] { assert tail[..0] == []; }
    }
  }

  /** The group rows of the flattened groups are the groups, in order. */
  lemma {:induction false} FlattenShowsEachGroup(groups: seq<Group>, info: GroupingInfo)
    ensures GroupsIn(Flatten(groups, info)) == groups
  {
    if groups != [] {
      var front, last := groups[..|groups| - 1], groups[|groups| - 1];
      var rows, tail := Flatten(front, info), GroupRows(last, info);
      calc {
        GroupsIn(Flatten(groups, info));
        GroupsIn(rows + tail);
        { GroupsInAppend(rows, tail); }
        GroupsIn(rows) + GroupsIn(tail);
        { FlattenShowsEachGroup(front, info); GroupRowsGroups(last, info); }
        front + [last];
        groups;
      }
    }
  }

  /** The flattened groups open with the first group's row. */
  lemma {:induction false} FlattenOpensWithFirstGroup(groups: seq<Group>, info: GroupingInfo)
    requires groups != []
    ensures |Flatten(groups, info)| > 0 && Flatten(groups, info)[0] == GroupRow(groups[0])
  {
    var front, last := groups[..|groups| - 1], groups[|groups| - 1];
    assert Flatten(groups, info) == Flatten(front, info) + GroupRows(last, info);
    if front != [] {
      FlattenOpensWithFirstGroup(front, info);
    }
  }

  /**
   * The grouped view shows one group row per distinct key, in the order
   * the keys first appear, and opens with a group row when there are items.
   */
  lemma GroupedViewGroups(items: seq<Record>, info: GroupingInfo)
    ensures |GroupsIn(Visible(items, Some(info)))| == |GroupKeys(items, info.getter)|
    ensures forall i :: 0 <= i < |GroupKeys(items, info.getter)| ==>
      GroupsIn(Visible(items, Some(info)))[i].value == GroupKeys(items, info.getter)[i]
    ensures items != [] ==> |Visible(items, Some(info))| > 0 && Visible(items, Some(info))[0].GroupRow?
  {
    FlattenShowsEachGroup(GroupsOf(items, info), info);
    if items != [] {
      assert GroupKey(items[0], info.getter) in GroupKeys(items, info.getter);
      FlattenOpensWithFirstGroup(GroupsOf(items, info), info);
    }
  }

  lemma {:induction false} ItemsOfItemRows(xs: seq<Record>)
    ensures ItemsOf(ItemRows(xs)) == xs
  {
    if xs != [] {
      var front := xs[..|xs| - 1];
      assert ItemRows(xs) == ItemRows(front) + [ItemRow(xs[|xs| - 1])];
      ItemsOfAppend(ItemRows(front), [ItemRow(xs[|xs| - 1])]);
      assert ItemsOf([ItemRow(xs[|xs| - 1])]) == [xs[|xs| - 1]] by {
        assert [ItemRow(xs[|xs| - 1])][..0] == [];
      }
      ItemsOfItemRows(front);
    }
  }

  /** The multiset union of the members of the keys `ks`. */
  function MemberBag(items: seq<Record>, getter: string, ks: seq<Value>): multiset<Record>
  {
    if ks == [] then multiset{}
    else MemberBag(items, getter, ks[..|ks| - 1]) + multiset(Members(items, getter, ks[|ks| - 1]))
  }

  lemma MembersAppendItem(items: seq<Record>, x: Record, getter: string, k: Value)
    ensures Members(items + [x], getter, k) ==
      Members(items, getter, k) + (if GroupKey(x, getter) == k then [x] else [])
  {
    assert (items + [x])[..|items + [x]| - 1] == items;
  }

  lemma MemberBagUnfold(items: seq<Record>, getter: string, front: seq<Value>, j: Value)
    ensures MemberBag(items, getter, front + [j]) ==
      MemberBag(items, getter, front) + multiset(Members(items, getter, j))
  {
    assert (front + [j])[..|front + [j]| - 1] == front;
  }

  lemma BagOfAppendedItem(items: seq<Record>, x: Record, getter: string, j: Value)
    ensures multiset(Members(items + [x], getter, j)) ==
      multiset(Members(items, getter, j)) + (if GroupKey(x, getter) == j then multiset{x} else multiset{})
  {
    MembersAppendItem(items, x, getter, j);
  }

  lemma SplitExtra(x: Record, k: Value, front: seq<Value>, j: Value)
    requires j !in front
    ensures (if k in front + [j] then multiset{x} else multiset{}) ==
      (if k in front then multiset{x} else multiset{}) + (if k == j then multiset{x} else multiset{})
  {
  }

  lemma {:induction false} MemberBagAppendItem(items: seq<Record>, x: Record, getter: string, ks: seq<Value>)
    requires forall i, j :: 0 <= i < j < |ks| ==> ks[i] != ks[j]
    ensures MemberBag(items + [x], getter, ks) ==
      MemberBag(items, getter, ks) + (if GroupKey(x, getter) in ks then multiset{x} else multiset{})
  {
    if ks != [] {
      var front := ks[..|ks| - 1];
      var j := ks[|ks| - 1];
      var k := GroupKey(x, getter);
      assert ks == front + [j];
      assert j !in front;
      MemberBagAppendItem(items, x, getter, front);
      MembersAppendItem(items, x, getter, j);
      MemberBagUnfold(items + [x], getter, front, j);
      MemberBagUnfold(items, getter, front, j);
      BagOfAppendedItem(items, x, getter, j);
      SplitExtra(x, k, front, j);
    }
  }

  lemma {:induction false} KeyOfEveryMember(items: seq<Record>, getter: string, k: Value)
    ensures Members(items, getter, k) != [] ==> k in GroupKeys(items, getter)
  {
    if items != [] {
      var front := items[..|items| - 1];
      KeyOfEveryMember(front, getter, k);
      assert GroupKeys(front, getter) <= GroupKeys(items, getter);
    }
  }

  lemma {:induction false} MemberBagOfAbsentKey(items: seq<Record>, getter: string, ks: seq<Value>, k: Value)
    requires k !in GroupKeys(items, getter)
    ensures Members(items, getter, k) == []
    ensures MemberBag(items, getter, ks + [k]) == MemberBag(items, getter, ks)
  {
    KeyOfEveryMember(items, getter, k);
    assert (ks + [k])[..|ks + [k]| - 1] == ks;
  }

  /** Grouping loses and duplicates nothing: the groups' members together are exactly the items. */
  lemma {:induction false} GroupsPartitionItems(items: seq<Record>, getter: string)
    ensures MemberBag(items, getter, GroupKeys(items, getter)) == multiset(items)
  {
    if items != [] {
      var front, x := items[..|items| - 1], items[|items| - 1];
      assert items == front + [x];
      var ks := GroupKeys(front, getter);
      GroupsPartitionItems(front, getter);
      MemberBagAppendItem(front, x, getter, ks);
      var k := GroupKey(x, getter);
      if k !in ks {
        assert GroupKeys(items, getter) == ks + [k];
        MemberBagOfAbsentKey(front, getter, ks, k);
        assert Members(items, getter, k) == [x];
        assert (ks + [k])[..|ks + [k]| - 1] == ks;
        MemberBagAppendItem(front, x, getter, ks + [k]);
      }
    }
  }

  /** An expanded group shows exactly its members as item rows. */
  lemma GroupRowsItems(g: Group, info: GroupingInfo)
    requires !g.collapsed
    ensures ItemsOf(GroupRows(g, info)) == g.rows
  {
    var tail := if g.totals.Some? && info.displayTotalsRow && (!g.collapsed || info.aggregateCollapsed)
                then [TotalsRow(g.totals.value)] else [];
    assert GroupRows(g, info) == [GroupRow(g)] + ItemRows(g.rows) + tail;
    ItemsOfAppend([GroupRow(g)] + ItemRows(g.rows), tail);
    ItemsOfAppend([GroupRow(g)], ItemRows(g.rows));
    assert ItemsOf([GroupRow(g)]) == [] by { assert [GroupRow(g)][..0] == []; }
    assert ItemsOf(tail) == [] by {
      if tail != [] { assert tail[..0] == []; }
    }
    ItemsOfItemRows(g.rows);
  }

  lemma {:induction false} FlattenItems(items: seq<Record>, info: GroupingInfo, ks: seq<Value>)
    requires !info.collapsed
    ensures multiset(ItemsOf(Flatten(GroupsFor(items, info, ks), info))) == MemberBag(items, info.getter, ks)
  {
    if ks != [] {
      var gs := GroupsFor(items, info, ks);
      var front := ks[..|ks| - 1];
      assert gs[..|gs| - 1] == GroupsFor(items, info, front);
      FlattenItems(items, info, front);
      var g := gs[|gs| - 1];
      ItemsOfAppend(Flatten(GroupsFor(items, info, front), info), GroupRows(g, info));
      GroupRowsItems(g, info);
    }
  }


  /**
   * With groups expanded, the item rows of the grouped view are a
   * permutation of the items: each item is shown exactly once.
   */
  lemma GroupedViewShowsEachItemOnce(items: seq<Record>, info: GroupingInfo)
    requires !info.collapsed
    ensures multiset(ItemsOf(Visible(items, Some(info)))) == multiset(items)
  {
    FlattenItems(items, info, GroupKeys(items, info.getter));
    GroupsPartitionItems(items, info.getter);
  }

  /** Without grouping the visible rows are the items, in order. */
  lemma UngroupedViewIsItems(items: seq<Record>)
    ensures |Visible(items, None)| == |items|
    ensures ItemsOf(Visible(items, None)) == items
  {
    ItemsOfItemRows(items);
  }

  lemma {:induction false} MembersOfSharedKey(items: seq<Record>, getter: string, k: Value)
    requires forall i :: 0 <= i < |items| ==> GroupKey(items[i], getter) == k
    ensures Members(items, getter, k) == items
  {
    if items != [] {
      MembersOfSharedKey(items[..|items| - 1], getter, k);
    }
  }

  lemma {:induction false} SharedKeyIsOnlyKey(items: seq<Record>, getter: string, k: Value)
    requires |items| > 0
    requires forall i :: 0 <= i < |items| ==> GroupKey(items[i], getter) == k
    ensures GroupKeys(items, getter) == [k]
  {
    if |items| > 1 {
      SharedKeyIsOnlyKey(items[..|items| - 1], getter, k);
    }
  }

  lemma {:induction false} SumOfNonNumeric(items: seq<Record>, field: string)
    requires forall i :: 0 <= i < |items| ==> !Get(items[i], field).Num?
    ensures SumOf(items, field) == 0.0
  {
    if items != [] {
      SumOfNonNumeric(items[..|items| - 1], field);
    }
  }

  /**
   * Items that all share the key `k` form one expanded group: the group row
   * (count = number of items, level 0, members = the items, title from the
   * formatter, totals only with aggregators), then the items in order, then
   * a totals row exactly when there are aggregators and totals are shown.
   */
  lemma SharedKeyGrouping(items: seq<Record>, info: GroupingInfo, k: Value)
    requires |items| > 0 && !info.collapsed
    requires forall i :: 0 <= i < |items| ==> GroupKey(items[i], info.getter) == k
    ensures GroupsOf(items, info) == [MakeGroup(info, k, items)]
    ensures var g := MakeGroup(info, k, items);
      && g.count == |items| && g.level == 0 && g.rows == items && g.value == k
      && g.title == info.formatter(k, |items|)
      && (g.totals.None? <==> |info.aggregators| == 0)
      && Visible(items, Some(info)) ==
         [GroupRow(g)] + ItemRows(items)
         + (if |info.aggregators| > 0 && info.displayTotalsRow then [TotalsRow(g.totals.value)] else [])
  {
    SharedKeyGroups(items, info, k);
    FlattenOne(MakeGroup(info, k, items), info);
  }

  lemma SharedKeyGroups(items: seq<Record>, info: GroupingInfo, k: Value)
    requires |items| > 0
    requires forall i :: 0 <= i < |items| ==> GroupKey(items[i], info.getter) == k
    ensures GroupsOf(items, info) == [MakeGroup(info, k, items)]
  {
    SharedKeyIsOnlyKey(items, info.getter, k);
    MembersOfSharedKey(items, info.getter, k);
    GroupsForOne(items, info, k);
  }

  lemma GroupsForOne(items: seq<Record>, info: GroupingInfo, k: Value)
    ensures GroupsFor(items, info, [k]) == [MakeGroup(info, k, Members(items, info.getter, k))]
  {
  }

  lemma FlattenOne(g: Group, info: GroupingInfo)
    ensures Flatten([g], info) == GroupRows(g, info)
  {
    assert [g][..0] == [];
  }

  /** A sum over a field that holds no number on any member totals 0. */
  lemma SumOverNonNumericFieldIsZero(items: seq<Record>, field: string)
    requires forall i :: 0 <= i < |items| ==> !Get(items[i], field).Num?
    ensures Accumulate([Sum(field)], items).sum == map[field := 0.0]
  {
    SumOfNonNumeric(items, field);
    assert (set a | a in [Sum(field)] :: a.field) == {field};
  }
}

=== FILE: number_text.dfy ===
/**
 * Character-level recognisers for the numeric text an editor input holds:
 * the two regular expressions of the float editor's validation and the
 * subset of JavaScript's `Number`/`parseFloat` reading that plain decimal
 * strings exercise.
 */
module NumberText {
  import opened Wrappers

  predicate IsDigit(c: char) { '0' <= c <= '9' }

  predicate IsSign(c: char) { c == '-' || c == '+' }

  predicate AllDigits(s: string)
  {
    forall i :: 0 <= i < |s| ==> IsDigit(s[i])
  }

  /** Where the recogniser stands after reading a prefix of the input. */
  datatype Phase =
    | Start                            // nothing read yet
    | Signed                           // a lone '+' or '-'
    | Whole(digits: nat)               // sign?, then `digits` digits
    | Fraction(whole: nat, frac: nat)  // sign?, `whole` digits, '.', `frac` digits
    | Dead                             // no decimal shape can follow

  /** One transition of the recogniser. */
  function Step(p: Phase, c: char): Phase
  {
    match p
    case Start =>
      if IsSign(c) then Signed
      else if IsDigit(c) then Whole(1)
      else if c == '.' then Fraction(0, 0)
      else Dead
    case Signed =>
      if IsDigit(c) then Whole(1)
      else if c == '.' then Fraction(0, 0)
      else Dead
    case Whole(n) =>
      if IsDigit(c) then Whole(n + 1)
      else if c == '.' then Fraction(n, 0)
      else Dead
    case Fraction(w, f) =>
      if IsDigit(c) then Fraction(w, f + 1) else Dead
    case Dead => Dead
  }

  /** The phase reached by reading `s` from left to right. */
  function Scan(s: string): Phase
  {
    if s == [] then Start else Step(Scan(s[..|s| - 1]), s[|s| - 1])
  }

  /** `s` without its leading sign character, if it has one. */
  function Unsigned(s: string): (t: string)
    ensures |t| <= |s|
  {
    if |s| > 0 && IsSign(s[0]) then s[1..] else s
  }

  /** The index of the first '.' in `t`, or `|t|` when there is none. */
  function DotIndex(t: string): (d: nat)
    ensures d <= |t|
    ensures d < |t| ==> t[d] == '.'
    ensures forall i :: 0 <= i < d ==> t[i] != '.'
  {
    if t == [] then 0
    else if t[0] == '.' then 0
    else 1 + DotIndex(t[1..])
  }

  /**
   * The reference reading of a string, stated on its parts rather than by
   * scanning: an optional sign, a digit run, and optionally a '.' followed
   * by a second digit run.
   */
  function Shape(s: string): Phase
  {
    if s == [] then Start
    else
      var t := Unsigned(s);
      var d := DotIndex(t);
      if t == [] then Signed
      else if d == |t| then (if AllDigits(t) then Whole(|t|) else Dead)
      else if AllDigits(t[..d]) && AllDigits(t[d + 1..]) then Fraction(d, |t| - d - 1)
      else Dead
  }

  lemma AllDigitsAppend(a: string, c: char)
    ensures AllDigits(a + [c]) <==> AllDigits(a) && IsDigit(c)
  {
    if AllDigits(a) && IsDigit(c) {
      forall i | 0 <= i < |a + [c]| ensures IsDigit((a + [c])[i]) {
        if i < |a| { assert (a + [c])[i] == a[i]; }
      }
    }
    if AllDigits(a + [c]) {
      assert (a + [c])[|a|] == c;
      forall i | 0 <= i < |a| ensures IsDigit(a[i]) {
        assert (a + [c])[i] == a[i];
      }
    }
  }

  lemma {:induction false} DotIndexAppend(t: string, c: char)
    ensures DotIndex(t + [c]) ==
      if DotIndex(t) < |t| then DotIndex(t) else if c == '.' then |t| else |t| + 1
  {
    if t == [] {
    } else if t[0] == '.' {
    } else {
      assert (t + [c])[1..] == t[1..] + [c];
      DotIndexAppend(t[1..], c);
    }
  }

  /** Reading one character after the empty string. */
  lemma ShapeOfOne(c: char)
    ensures Shape([c]) == Step(Start, c)
  {
    if !IsSign(c) {
      assert Unsigned([c]) == [c];
      if c == '.' {
        assert [c][..0] == [] && [c][1..] == [];
      } else {
        assert AllDigits([c]) <==> IsDigit(c);
      }
    }
  }

  /** Reading one character after a lone sign. */
  lemma ShapeAfterSign(p: string, c: char)
    requires |p| == 1 && IsSign(p[0])
    ensures Shape(p + [c]) == Step(Signed, c)
  {
    var t' := [c];
    assert Unsigned(p + [c]) == t' by { assert (p + [c])[1..] == [c]; }
    if c == '.' {
      assert DotIndex(t') == 0;
      assert t'[..0] == [] && t'[1..] == [];
    } else {
      assert DotIndex(t') == 1;
      assert AllDigits(t') <==> IsDigit(c);
    }
  }

  lemma UnsignedAppend(p: string, c: char)
    requires p != []
    ensures Unsigned(p + [c]) == Unsigned(p) + [c]
  {
    if IsSign(p[0]) { assert (p + [c])[1..] == p[1..] + [c]; }
  }

  /** Reading one character after a digit run with no point yet. */
  lemma ShapeAfterWhole(p: string, c: char)
    requires p != [] && Unsigned(p) != [] && DotIndex(Unsigned(p)) == |Unsigned(p)|
    ensures Shape(p + [c]) == Step(Shape(p), c)
  {
    var t := Unsigned(p);
    UnsignedAppend(p, c);
    AllDigitsAppend(t, c);
    DotIndexAppend(t, c);
    var t' := t + [c];
    if c == '.' {
      assert t'[..|t|] == t && t'[|t| + 1..] == [];
    }
  }

  /** Reading one character after a point has been read. */
  lemma ShapeAfterPoint(p: string, c: char)
    requires p != [] && Unsigned(p) != [] && DotIndex(Unsigned(p)) < |Unsigned(p)|
    ensures Shape(p + [c]) == Step(Shape(p), c)
  {
    var t := Unsigned(p);
    var d := DotIndex(t);
    UnsignedAppend(p, c);
    DotIndexAppend(t, c);
    var t' := t + [c];
    assert t'[..d] == t[..d];
    assert t'[d + 1..] == t[d + 1..] + [c];
    AllDigitsAppend(t[d + 1..], c);
  }

  /** The reference reading advances exactly as the recogniser does. */
  lemma ShapeStep(p: string, c: char)
    ensures Shape(p + [c]) == Step(Shape(p), c)
  {
    if p == [] {
      assert p + [c] == [c];
      ShapeOfOne(c);
    } else if Unsigned(p) == [] {
      ShapeAfterSign(p, c);
    } else if DotIndex(Unsigned(p)) == |Unsigned(p)| {
      ShapeAfterWhole(p, c);
    } else {
      ShapeAfterPoint(p, c);
    }
  }

  /** The recogniser reads every string exactly as the reference reading does. */
  lemma {:induction false} ScanIsShape(s: string)
    ensures Scan(s) == Shape(s)
  {
    if s != [] {
      var p, c := s[..|s| - 1], s[|s| - 1];
      assert s == p + [c];
      ScanIsShape(p);
      ShapeStep(p, c);
    }
  }

  /** The 0-decimal-places pattern `^[-+]?(\d+(\.)?(\d)*)$`: a digit before any point. */
  predicate WholeNumberPattern(s: string)
  {
    match Scan(s)
    case Whole(_) => true
    case Fraction(w, _) => w >= 1
    case _ => false
  }

  /** The N-decimal-places pattern `^[-+]?(\d*(\.)?(\d){0,N})$`: at most N digits after the point. */
  predicate DecimalPattern(s: string, places: nat)
  {
    match Scan(s)
    case Dead => false
    case Fraction(_, f) => f <= places
    case _ => true
  }

  /**
   * `!isNaN(s)` for a plain decimal string: the empty string reads as 0, a
   * lone sign or a lone point reads as NaN.
   */
  predicate IsNumeric(s: string)
  {
    s == [] ||
    match Scan(s)
    case Whole(_) => true
    case Fraction(w, f) => w + f >= 1
    case _ => false
  }

  function Pow10(n: nat): (p: nat)
    ensures p >= 1
  {
    if n == 0 then 1 else 10 * Pow10(n - 1)
  }

  function DigitValue(c: char): nat
  {
    if IsDigit(c) then (c as int) - ('0' as int) else 0
  }

  /** The value of a run of decimal digits, most significant first. */
  function DigitsValue(ds: string): nat
  {
    if ds == [] then 0 else 10 * DigitsValue(ds[..|ds| - 1]) + DigitValue(ds[|ds| - 1])
  }

  /** The value of the digits after a point, read from the last one back: 0.d1d2...dk. */
  function FractionValue(ds: string): real
  {
    if ds == [] then 0.0 else (DigitValue(ds[0]) as real + FractionValue(ds[1..])) / 10.0
  }

  /** 10 to the power -n. */
  function NegPow10(n: nat): real
  {
    if n == 0 then 1.0 else NegPow10(n - 1) / 10.0
  }

  /** NegPow10 is the reciprocal of Pow10. */
  lemma {:induction false} NegPow10Inverse(n: nat)
    ensures NegPow10(n) * Pow10(n) as real == 1.0
  {
    if n > 0 {
      NegPow10Inverse(n - 1);
      var a, b := NegPow10(n - 1), Pow10(n - 1) as real;
      calc {
        NegPow10(n) * Pow10(n) as real;
        (a / 10.0) * (10.0 * b);
        a * b;
      }
    }
  }

  /** `parseFloat(s)` for a numeric string; `None` stands for NaN (the empty string) and non-numbers. */
  function ParseFloat(s: string): Option<real>
  {
    if s == [] || !IsNumeric(s) then None
    else
      var t := Unsigned(s);
      var d := DotIndex(t);
      var whole := DigitsValue(t[..d]) as real;
      var frac := if d < |t| then FractionValue(t[d + 1..]) else 0.0;
      Some(if s[0] == '-' then -(whole + frac) else whole + frac)
  }

  /** The number of digits after the point, 0 when there is no point. */
  function FractionDigits(s: string): nat
  {
    var t := Unsigned(s);
    var d := DotIndex(t);
    if d < |t| then |t| - d - 1 else 0
  }

  /** The pattern with N places accepts a numeric string exactly when it has at most N fraction digits. */
  lemma DecimalPatternOnNumbers(s: string, places: nat)
    requires s != [] && IsNumeric(s)
    ensures DecimalPattern(s, places) <==> FractionDigits(s) <= places
  {
    ScanIsShape(s);
  }

  /** The 0-places pattern accepts exactly the numeric strings with a digit before any point. */
  lemma WholeNumberPatternShape(s: string)
    ensures WholeNumberPattern(s) <==>
      s != [] && IsNumeric(s) && |Unsigned(s)| > 0 && IsDigit(Unsigned(s)[0])
  {
    ScanIsShape(s);
    if s != [] {
      var t := Unsigned(s);
      var d := DotIndex(t);
      if t != [] && d < |t| && d > 0 {
        assert t[0] == t[..d][0];
      }
    }
  }
}

=== FILE: values.dfy ===
/**
 * The dynamically-typed values that grid items hold, with JavaScript's
 * notion of truthiness, and items as mutable objects.
 */
module Values {

  /** A JavaScript value as far as the grid looks at it. */
  datatype Value =
    | Undefined
    | Null
    | Bool(b: bool)
    | Num(r: real)
    | NaN
    | Str(s: string)
    | Obj(fields: map<string, Value>)

  /** A record: a plain object mapping property names to values. */
  type Record = map<string, Value>

  /** JavaScript's falsy values: `undefined`, `null`, `false`, `0`, `NaN` and `''`. */
  predicate Falsy(v: Value)
  {
    v == Undefined || v == Null || v == Bool(false) || v == Num(0.0) || v == NaN || v == Str("")
  }

  /** `record[name]`: a missing property reads as `undefined`. */
  function Get(r: Record, name: string): Value
  {
    if name in r then r[name] else Undefined
  }

  /** An object updated in place by an editor. */
  class DataItem {
    var fields: Record

    constructor (fields: Record)
      ensures this.fields == fields
    {
      this.fields := fields;
    }
  }
}

=== FILE: wrappers.dfy ===
/** Result types shared by the editor and the data view: an optional value, and an outcome that passes or fails with an error. */
module Wrappers {

  datatype Option<+T> = None | Some(value: T)

  /** The outcome of a call that either completes or fails with an error. */
  datatype Outcome<+E> = Pass | Fail(error: E)
}
